=== FILE: README.md ===
# CPU scheduling simulator: a Dafny model of its scheduling core

`sched.c` simulates two CPU scheduling disciplines over a fixed set of process
records. Each record has a pid, an arrival time, a burst (the total CPU time it
needs) and a priority. The two disciplines are non-preemptive priority (`npp`)
and round robin with a fixed quantum (`rr`). The simulation fills in the
finish time and waiting time of every record it completes, and returns the
completed records in the order they finished.

This project models the scheduling core of `sched.c` as pure functions over
immutable data:

- **Records** (`records.dfy`): the process record, `init_process`, and the
  import loop that sets `leftover := burst`.
- **Queue** (`queue.dfy`): the doubly linked list as a sequence. `enqueue`
  appends at the tail; `dequeue` removes the head, and an empty list gives back
  `None`, the model of the NULL pointer.
- **Arrival** (`arrival.dfy`): `arrivalChecker`. It rotates every record of the
  job queue (the records that have not arrived yet) once. Records whose
  arrival equals the clock go to the tail of the ready queue; the others go
  back to the tail of the job queue. The result is a stable partition.
- **PrioritySort** (`priority_sort.dfy`): `swapWithNext` and the
  adjacent-swap insertion sort `insSortPriority`. It sorts in ascending
  priority and is stable, because only a strict `>` causes a swap.
- **Simulation** (`simulation.dfy`): the state shared by both simulators.
  This is the clock, the current process, the ready, job and completed
  queues, the start of a run, and the completion bookkeeping
  (`finish := clock`, `waiting := clock - arrival - burst`).
- **NonPreemptive** (`npp.dfy`) and **NppProperties** (`npp_properties.dfy`):
  `npp`. One function covers one turn of the outer loop. The per-tick loop
  over a whole burst has a closed form, and a lemma proves it equal to the
  tick-by-tick loop.
- **RoundRobin** (`round_robin.dfy`) and **RrProperties**
  (`rr_properties.dfy`): `rr`. This covers the quantum loop, with its arrival
  check skipped on the last tick of a full quantum, then completion or requeue,
  then dispatch.
- **Scheduler** (`scheduler.dfy`): `processQueue`. It selects a simulator by
  the strings "NPP" and "RR"; any other string gives an empty completed queue.
- **WorkedExamples** (`worked_examples.dfy`): the two hand-worked schedules,
  each derived from the model turn by turn:
  - a priority run whose finish times are 5, 8 and 16;
  - a round-robin run with quantum 4.

Integers are unbounded. The model assumes that every value the source
computes fits in a C `int`: the clock (`CLOCK++`, lines 355 and 383) and the
waiting time (`CLOCK - arrival - burst`, lines 359 and 393) could otherwise
overflow, which C leaves undefined.

Three behaviours of the code are easy to miss, and the model keeps them:

- **Idle gap.** A run ends as soon as the ready queue is empty at a dispatch
  (`sched.c:364`, `sched.c:397`, `sched.c:403`), even when records are still
  pending in the job queue. Those records are never scheduled, so they are not
  in the completed queue.
- **Time-0 arrivals.** A check admits only the records whose arrival equals
  the clock (`sched.c:336`), and both loops advance the clock before they check
  (`sched.c:355-356`, `sched.c:383-385`). Under `rr` the first check is
  therefore at clock 1. Under `npp` it is at clock 1 too, unless the input
  head's burst is 0 or less: then the check after the head completes
  (`sched.c:362`) runs at clock 0. A record other than the input head whose
  arrival time is below 0 is never admitted. One arriving at 0 is admitted
  only in that `npp` case.
- **Head first.** The input head is dequeued before any arrival check
  (`sched.c:348`, `sched.c:375`), so it runs first, from clock 0, whatever its
  arrival time and priority. Its waiting time `CLOCK - arrival - burst`
  (`sched.c:359`, `sched.c:393`) is therefore below 0 when its arrival time is
  above 0: it finishes before its arrival plus its burst. For a head
  `Process(1, 5, 2, 0, 0, 2, 1)`, `npp` completes it at clock 2 with a
  waiting time of -5. Every other completed record starts no earlier than
  its arrival, so its waiting time is 0 or more. For `rr` this needs records
  that have not run yet (leftover equal to burst), as the import leaves
  them.

The conservation lemmas say what happens to records left pending: they are
still in the job queue when the run ends.

## Model

| member | source | states |
|---|---|---|
| Records.InitProcess | sched.c:175-194 | pid, arrival, burst and priority are the arguments; finish, waiting and leftover start at 0 |
| Records.Import | sched.c:110-124 | one record per row, in reading order, carrying that row's fields, with finish and waiting 0 and leftover equal to the burst |
| Records.ImportKeepsRows | sched.c:110-124 | the import is lossless and keeps reading order: the records' key fields are exactly the rows read |
| Queue.Enqueue | sched.c:229-244 | the node goes to the tail and everything before it is kept |
| Queue.Dequeue | sched.c:246-264 | NULL exactly for an empty list; otherwise the head and the rest of the list, which together are the list |
| Queue.DequeueAfterEnqueue | sched.c:229-264 | an element enqueued behind a non-empty list comes out only after the current head; on an empty list it comes straight back |
| Queue.FirstInFirstOut | sched.c:229-264 | enqueueing a sequence and then dequeueing until NULL yields the same sequence in the same order |
| Arrival.Rotate | sched.c:334-341 | each turn moves one record, so the two queues together keep their length, and the ready queue only grows at its tail |
| Arrival.RotatePartitions | sched.c:334-341 | the loop over `count` rotations ends with the arriving records appended to the ready tail and the rest behind the unvisited part of the job queue, both in their old order |
| Arrival.ArrivalChecker | sched.c:332-342 | ready becomes old ready followed by the job records with arrival == clock in job order; job keeps exactly the others, in order |
| Arrival.ArrivalCheckerConserves | sched.c:332-342 | no record is lost or duplicated: both queues together hold the same multiset before and after |
| Arrival.ArrivalCheckerIdempotent | sched.c:332-342 | a second check at the same clock value changes nothing |
| Arrival.ArrivalsConserve | sched.c:354-358 | checks at every clock value in a range admit each pending record at most once: admitted plus still pending is the old job queue as a multiset |
| PrioritySort.SwapWithNext | sched.c:267-298 | the record at k and its successor trade places; every other position is unchanged |
| PrioritySort.SwapPermutes | sched.c:267-298 | a swap keeps the multiset of records |
| PrioritySort.SwapKeepsPriorityClasses | sched.c:316-321 | swapping two records of different priority keeps the relative order of every group of equal-priority records |
| PrioritySort.BubbleLeft | sched.c:318-321 | bubbling left keeps the records and their order within each priority value, and does not touch positions to the right |
| PrioritySort.BubbleLeftSorts | sched.c:316-323 | bubbling the out-of-place record left leaves the run up to the scan point sorted |
| PrioritySort.SortFrom | sched.c:309-326 | the scan from position j to the tail keeps the length and the records (a permutation) and the order of the records within every priority value |
| PrioritySort.SortFromSorts | sched.c:309-326 | the scan from a sorted prefix to the tail leaves the whole list sorted |
| PrioritySort.InsSortPriority | sched.c:301-327 | the result is in ascending priority, is a permutation of the input, keeps the input order within each priority value (stable), and leaves a list of one record as it is |
| PrioritySort.SortIdempotent | sched.c:301-327 | sorting a list already in priority order returns it unchanged |
| PrioritySort.SortHeadIsEarliestMinimum | sched.c:301-327 | the head after sorting has the least priority value, and among records of that value it is the first one queued |
| PrioritySort.SortedUnique | sched.c:301-327 | two sorted lists with the same records and the same order within every priority value are equal: a stable sort has one outcome |
| PrioritySort.ResortAppended | sched.c:356-357 | sorting, appending arrivals and sorting again gives the same list as a single sort of everything in queue order |
| Simulation.Start | sched.c:345-352 | clock 0; the input head is the current process; the rest of the input is the job queue in order; the ready queue is empty; an empty input leaves no current process |
| Simulation.Complete | sched.c:359-360 | finish is the clock now and waiting = finish - arrival - burst; the key fields and leftover are unchanged |
| Simulation.ChronologicalAppend | sched.c:359-361 | appending a record completed at a later clock keeps the completed queue consistent and in finishing order |
| NonPreemptive.Admit | sched.c:356-357 | after the check and the sort, ready is in priority order, the job queue keeps exactly the records not arriving now, and no record is lost; within one priority value the ready records are the old ready ones, then the arrivals in job order (first come, first served) |
| NonPreemptive.Tick | sched.c:355-357 | a tick advances the clock by one and never touches the running record or the completed queue: no preemption |
| NonPreemptive.Burst | sched.c:354-358 | running until a clock value moves the clock there, leaves the running record and the completed queue alone, and conserves the pending and ready records |
| NppProperties.TickExtends | sched.c:354-358 | one more tick after the closed form over a range is the closed form over the range extended by one |
| NppProperties.BurstNext | sched.c:354-358 | the closed form one clock value further is one more tick, so it equals the tick-by-tick loop |
| NonPreemptive.SelectNext | sched.c:364 | the new current process is the head of the sorted ready queue, its priority is no greater than that of any record still ready, and it is NULL exactly when nothing is ready |
| NonPreemptive.NppStep | sched.c:353-364 | the current process runs its whole burst; it is appended, completed at the clock now, to the completed queue with its key unchanged; the next one has the lowest priority value ready; NULL only when nothing is ready; one record fewer to schedule; no key lost (where the next process stands among all the contenders is NppProperties.NppStepOrder) |
| NonPreemptive.NppRun | sched.c:353-365 | the run ends with no current process and an empty ready queue, never goes back in time, and only appends to the completed queue |
| NonPreemptive.Npp | sched.c:344-369 | at the end nothing runs and nothing is ready; an empty input completes nothing |
| NppProperties.AdmitAfterSweep | sched.c:362-363 | after the checks during a burst, the check at the completion clock admits nothing new and the sort leaves the sorted ready queue as it is |
| NppProperties.NppStepBurstOrder | sched.c:354-364 | after a burst that takes time, the next process followed by the ready queue is the old ready queue plus every arrival during the burst, sorted stably by priority; the job queue keeps the records arriving at no clock value of the burst |
| NppProperties.NppStepInstantOrder | sched.c:354-364 | after a burst of 0 or less, the one check at the clock now admits the arrivals, and the next process followed by the ready queue is the old ready queue plus those, sorted stably by priority |
| NppProperties.NppStepOrder | sched.c:353-364 | the next process followed by the ready queue holds exactly the contenders, in priority order, and keeps their order within every priority value |
| NppProperties.NppNextIsEarliestMinimum | sched.c:353-364 | the next process has the least priority value of all the contenders and is the first of them with that value to become ready; NULL exactly when there are no contenders |
| NppProperties.NppRunConserves | sched.c:353-365 | a run loses and invents no record: the keys in all queues are the same multiset throughout |
| NppProperties.NppRunChronological | sched.c:353-365 | every record completed has finish at most the clock and consistent waiting, and finish times never go down |
| NppProperties.NppConserves | sched.c:344-369 | every input record ends up either completed or still pending, exactly once |
| NppProperties.NppChronological | sched.c:344-369 | the completed queue is in finishing order with consistent waiting times |
| NppProperties.NppHeadFirst | sched.c:348-361 | the input head completes first, at the end of its burst, whatever its arrival time and priority |
| NppProperties.NppHeadEarly | sched.c:345-361 | a head arriving after clock 0 is completed first but finishes before its arrival plus its burst, with waiting time minus its arrival |
| NppProperties.NppHeadEarlyExample | sched.c:345-361 | the head `Process(1, 5, 2, 0, 0, 2, 1)` completes at clock 2 with waiting time -5 |
| NppProperties.NppStepArrived | sched.c:353-364 | if every ready record has arrived by the clock, then after a turn the next process and the ready queue have all arrived by the new clock |
| NppProperties.NppRunFeasible | sched.c:353-365 | from a state whose running and ready records have all arrived, every record the run completes finishes no earlier than its arrival plus its burst |
| NppProperties.NppLaterFeasible | sched.c:344-369 | every completed record but the first finishes no earlier than its arrival plus its burst, so its waiting time is 0 or more |
| RoundRobin.CheckArrivals | sched.c:385 | a check at the clock now appends the records arriving now to the ready queue and keeps the rest pending |
| RoundRobin.Tock | sched.c:382-386 | one iteration of the quantum loop advances the clock by one and takes one tick off the current process's leftover |
| RoundRobin.Quantum | sched.c:381-390 | every tick is paid out of the leftover; a process owing work runs min(q, leftover) ticks |
| RoundRobin.QuantumConserves | sched.c:381-390 | the quantum loop only moves records from the job queue to the ready queue |
| RoundRobin.Dispatch | sched.c:403 | the new current process is the ready head; NULL exactly when the ready queue is empty |
| RoundRobin.Retire | sched.c:393-395 | completion appends the process, completed at the clock now, to the completed queue, clears the current process, and leaves the clock, ready and job queues alone |
| RoundRobin.Requeue | sched.c:401 | the unfinished process goes to the tail of the ready queue |
| RoundRobin.FinishTurn | sched.c:392-398 | the process is appended, completed at the clock now, to the completed queue; the run ends only when nothing is ready |
| RoundRobin.RequeueTurn | sched.c:400-403 | after a requeue there is always a next process, and nothing is completed |
| RoundRobin.RrStep | sched.c:380-403 | a turn lasts min(q, leftover) ticks; a process owing at most a quantum completes, with its key unchanged, leftover 0 and finish equal to the clock now; any other completes nothing |
| RoundRobin.RrStepLive | sched.c:380-403 | the records left to schedule are those of the queues, plus the current one owing a quantum less when it did not finish |
| RoundRobin.RrStepPays | sched.c:380-403 | a turn pays for the ticks it ran out of the total work owed, and every record left still owes work, so the run terminates |
| RoundRobin.RrRun | sched.c:380-404 | the run ends with no current process and an empty ready queue, never goes back in time, and only appends to the completed queue |
| RoundRobin.Rr | sched.c:371-406 | at the end nothing runs and nothing is ready; an empty input completes nothing |
| RrProperties.TockTicked | sched.c:382-386 | one loop iteration extends the closed form by one tick, skipping the check on the last tick of the quantum |
| RrProperties.QuantumIsTicked | sched.c:381-390 | the quantum loop equals the closed form over min(q, leftover) ticks |
| RrProperties.QuantumShort | sched.c:381-390 | a process owing less than a quantum runs its leftover out, and every tick of the turn is checked for arrivals |
| RrProperties.QuantumFull | sched.c:384-386 | a full quantum runs q ticks and checks arrivals on every tick but the last |
| RrProperties.RequeueAfterFull | sched.c:400-402 | after a full quantum the process is requeued behind the earlier arrivals and before those arriving on the quantum's last tick |
| RrProperties.FinishAfterFull | sched.c:392-396 | a completion on the last tick of a full quantum still admits that tick's arrivals |
| RrProperties.RrStepFinishOrder | sched.c:380-398 | after a completing turn, the next process and the ready queue are the old ready queue followed by every arrival during the turn, in arrival order |
| RrProperties.RrStepRequeueOrder | sched.c:380-403 | after an incomplete turn, the expired process comes after the arrivals of the first q - 1 ticks and before those of the last tick |
| RrProperties.RrStepKeys | sched.c:380-403 | a turn loses and invents no record |
| RrProperties.RrRunConserves | sched.c:380-404 | a run loses and invents no record |
| RrProperties.RrRunChronological | sched.c:380-404 | the completed queue stays consistent and in finishing order |
| RrProperties.RrRunDrained | sched.c:380-404 | every record a run completes has leftover 0 |
| RrProperties.RrConserves | sched.c:371-406 | every input record ends up either completed or still pending, exactly once |
| RrProperties.RrChronological | sched.c:371-406 | the completed queue is in finishing order with consistent waiting times, and each record in it owes no more work (leftover 0) |
| RrProperties.RrStepOnTimeFinish | sched.c:392-397 | if every running or ready record has run only since its arrival and no pending one has run, a completing turn keeps that so |
| RrProperties.RrStepOnTimeRequeue | sched.c:400-403 | an incomplete turn keeps the same: the requeued process ran one quantum more in one quantum of clock time |
| RrProperties.RrStepFeasible | sched.c:392-395 | a process completed from such a state, unless keyed like the input head, finishes no earlier than its arrival plus its burst |
| RrProperties.RrStepOnTime | sched.c:380-403 | a turn keeps every record run only since its arrival, and a record it completes, other than one keyed like the input head, finishes no earlier than its arrival plus its burst |
| RrProperties.RrRunFeasible | sched.c:380-404 | from such a state, every record the run completes, other than one keyed like the input head, finishes no earlier than its arrival plus its burst |
| RrProperties.RrLaterFeasible | sched.c:371-406 | for input that has not run yet, every completed record keyed unlike the input head finishes no earlier than its arrival plus its burst, so its waiting time is 0 or more |
| Scheduler.ProcessQueue | sched.c:409-418 | any selector other than "NPP" and "RR" gives an empty queue, and so does an empty input |
| Scheduler.ProcessQueueInOrder | sched.c:409-418 | whatever the selector, the returned queue is chronological as of some clock: in finishing order, with consistent finish and waiting times |
| Scheduler.ProcessQueueKeys | sched.c:409-418 | whatever the selector, the returned queue holds only input records, none more often than the input |
| WorkedExamples.NppExample | sched.c:344-369 | imported rows (1,0,5,2), (2,1,3,1) and (3,2,8,3) finish in the order 1, 2, 3 at 5, 8 and 16, with waiting times 0, 4 and 6 |
| WorkedExamples.RrExample | sched.c:371-406 | with quantum 4, imported rows (1,0,5,1) and (2,1,3,1) finish in the order 2, 1 at 7 and 8, both with waiting time 3 |

## Left out

- `main` is not modelled. This covers the command-line parsing, reading the
  input file, writing the output file, and the averages printed to the
  console. `Records.Import` takes the rows already read.
- `malloc`, `free`, `exit` on allocation failure, `init_list`, and the
  `del_process`, `del_list` and `del_*` helpers are not modelled. Memory is not
  part of the model, and neither is the `del_list` in `processQueue`.
- The `prev`/`next` links and the list's `count` field are not modelled; a
  list is a sequence. `dequeue` on an empty list lowers `count` below 0 in the
  source. This happens at the final dispatch of a run (`sched.c:364`,
  `sched.c:397`), after which `count` is never read again. It also happens
  when the input is empty: the first `dequeue` (`sched.c:348`, `sched.c:375`)
  leaves `count` at -1, and the `count > 0` test that follows
  (`sched.c:350`, `sched.c:377`) is false, just as it is for 0. Neither case
  changes what the run does.
- C `int` overflow is not modelled. A clock that passes the largest `int`,
  or a waiting time `CLOCK - arrival - burst` outside its range, is undefined
  behaviour in C. The model computes these values exactly, so its results
  describe only inputs where they fit.
- PrioritySort.InsSortPriority returns an empty list unchanged. The source
  would dereference NULL, but it is only ever called on a non-empty list.
- RoundRobin.Rr requires a positive quantum, and that every input record owes
  at least one tick (leftover > 0). Outside that, the source can loop for
  ever. With a positive quantum it always does once a record owing 0 or less
  runs: `leftover--` (`sched.c:383`) steps past 0, so the test at
  `sched.c:392` never completes it. With a quantum of 0 or less, the quantum
  loop (`sched.c:381`) never runs. A record owing 0 then completes at once
  (`sched.c:392`), but a record owing work is requeued for ever. The runs
  with a quantum of 0 or less in which every admitted record owes 0 do end,
  and the model leaves them out. Scheduler.ProcessQueue carries the same
  requirement for "RR". It is also stronger than needed for records that
  are never admitted.
- Records.Import does not model the limit branch reading fewer rows than the
  limit. That loop (`sched.c:111-116`) never checks what `fscanf` returns, so
  the records past the last row read repeat that row's values, or hold
  uninitialised values when no row was read. "One record per row" covers
  only inputs with at least as many rows as the limit.
- RrProperties.RrLaterFeasible exempts every record with the input head's
  pid, arrival, burst and priority, not just the head itself. The head can
  be requeued and carries its early start into later turns. A duplicate of
  it is exempt too, though it does start no earlier than its arrival. The
  lemma also needs input that has not run yet (leftover equal to burst).
  `Records.Import` gives such input; a caller passing records that have
  already run would break the bound.
- RrProperties.RrChronological states that every completed record owes no
  more work (leftover 0), not that it ran for exactly its burst. The model
  does not count the ticks each record ran. For imported records, whose
  leftover starts equal to the burst, the two coincide.

=== FILE: arrival.dfy ===
/** `arrivalChecker`: move every pending (job queue) record whose arrival time
    is the current clock to the tail of the ready queue. */
module Arrival {

  import opened Records
  import opened Queue
  import opened Filters

  /** The ready queue and the job (pending) queue as a pair. */
  datatype Queues = Queues(ready: seq<Process>, job: seq<Process>)

  /** The loop of `arrivalChecker` with `n` turns left: dequeue the job head,
      enqueue it on the ready queue if it arrives now, else back on the job
      queue's tail. Each turn moves one record, so the two queues hold as
      many as before, and the ready queue only grows at its tail. */
  function Rotate(ready: seq<Process>, job: seq<Process>, n: nat, clock: int): (r: Queues)
    requires n <= |job|
    ensures |r.ready| + |r.job| == |ready| + |job|
    ensures |ready| <= |r.ready| && r.ready[..|ready|] == ready
    decreases n
  {
    if n == 0 then Queues(ready, job)
    else
      var p := job[0];
      if p.arrival == clock then Rotate(Enqueue(ready, p), job[1..], n - 1, clock)
      else Rotate(ready, Enqueue(job[1..], p), n - 1, clock)
  }

  /** A prefix of the job queue filtered: its head, if kept, then the rest. */
  lemma PrefixFilter(job: seq<Process>, n: int, sel: Selector)
    requires 0 < n <= |job|
    ensures Filter(job[..n], sel) == (if Keep(sel, job[0]) then [job[0]] else []) + Filter(job[1..][..n - 1], sel)
  {
    assert job[..n][1..] == job[1..][..n - 1];
  }

  /** A turn that admits the job head: the partitions of the first `n`
      records are the head plus the partitions of the next `n - 1`. */
  lemma RotateInStep(ready: seq<Process>, job: seq<Process>, n: int, clock: int)
    requires 0 < n <= |job| && job[0].arrival == clock
    ensures Enqueue(ready, job[0]) + Filter(job[1..][..n - 1], Window(clock, clock))
      == ready + Filter(job[..n], Window(clock, clock))
    ensures job[1..][n - 1..] + Filter(job[1..][..n - 1], Outside(clock, clock))
      == job[n..] + Filter(job[..n], Outside(clock, clock))
  {
    PrefixFilter(job, n, Window(clock, clock));
    PrefixFilter(job, n, Outside(clock, clock));
    AppendAssoc(ready, [job[0]], Filter(job[1..][..n - 1], Window(clock, clock)));
    assert job[1..][n - 1..] == job[n..];
  }

  /** A turn that sends the job head to the job tail. */
  lemma RotateOutStep(ready: seq<Process>, job: seq<Process>, n: int, clock: int)
    requires 0 < n <= |job| && job[0].arrival != clock
    ensures var job' := Enqueue(job[1..], job[0]);
      && ready + Filter(job'[..n - 1], Window(clock, clock)) == ready + Filter(job[..n], Window(clock, clock))
      && job'[n - 1..] + Filter(job'[..n - 1], Outside(clock, clock))
         == job[n..] + Filter(job[..n], Outside(clock, clock))
  {
    var p, rest := job[0], job[1..];
    var job' := Enqueue(rest, p);
    PrefixFilter(job, n, Window(clock, clock));
    PrefixFilter(job, n, Outside(clock, clock));
    assert job'[..n - 1] == rest[..n - 1];
    assert job'[n - 1..] == job[n..] + [p];
    AppendAssoc(job[n..], [p], Filter(rest[..n - 1], Outside(clock, clock)));
  }

  /** After `n` turns the first `n` job records have been partitioned: the
      arrivals went to the ready tail, the rest to the job tail, both in order. */
  lemma {:induction false} RotatePartitions(ready: seq<Process>, job: seq<Process>, n: nat, clock: int)
    requires n <= |job|
    ensures Rotate(ready, job, n, clock) ==
      Queues(ready + Filter(job[..n], Window(clock, clock)),
             job[n..] + Filter(job[..n], Outside(clock, clock)))
    decreases n
  {
    if n == 0 {
      assert job[..0] == [];
      assert job[0..] == job;
    } else if job[0].arrival == clock {
      RotatePartitions(Enqueue(ready, job[0]), job[1..], n - 1, clock);
      RotateInStep(ready, job, n, clock);
    } else {
      RotatePartitions(ready, Enqueue(job[1..], job[0]), n - 1, clock);
      RotateOutStep(ready, job, n, clock);
    }
  }

  /** `arrivalChecker` runs the loop once per record the job queue holds on
      entry. The result is a stable partition of the job queue on
      `arrival == clock`: arrivals are appended to the ready queue in job
      order, and everything else stays pending in its old order. */
  function ArrivalChecker(ready: seq<Process>, job: seq<Process>, clock: int): (r: Queues)
    ensures r.ready == ready + Filter(job, Window(clock, clock))
    ensures r.job == Filter(job, Outside(clock, clock))
  {
    RotatePartitions(ready, job, |job|, clock);
    assert job[..|job|] == job && job[|job|..] == [];
    Rotate(ready, job, |job|, clock)
  }

  /** Multiset bookkeeping for a queue pair split as `a + w` and `b + o`,
      where `w` and `o` together hold the records of `front`. */
  lemma RegroupParts(a: seq<Process>, w: seq<Process>, b: seq<Process>, o: seq<Process>, front: seq<Process>)
    requires multiset(w) + multiset(o) == multiset(front)
    ensures multiset((a + w) + (b + o)) == multiset(a + (front + b))
  {
  }

  /** Each turn of the loop moves one record from the job head to the tail
      of one of the two queues: together they hold the same records. */
  lemma RotateConserves(ready: seq<Process>, job: seq<Process>, n: nat, clock: int)
    requires n <= |job|
    ensures var r := Rotate(ready, job, n, clock);
      multiset(r.ready + r.job) == multiset(ready + job)
  {
    var front, back := job[..n], job[n..];
    RotatePartitions(ready, job, n, clock);
    WindowOutsideSplit(front, clock, clock);
    assert job == front + back;
    RegroupParts(ready, Filter(front, Window(clock, clock)), back, Filter(front, Outside(clock, clock)), front);
  }

  /** No record is lost or duplicated, so the total count is unchanged too. */
  lemma ArrivalCheckerConserves(ready: seq<Process>, job: seq<Process>, clock: int)
    ensures var r := ArrivalChecker(ready, job, clock);
      multiset(r.ready + r.job) == multiset(ready + job) && |r.ready| + |r.job| == |ready| + |job|
  {
    var r := ArrivalChecker(ready, job, clock);
    RotateConserves(ready, job, |job|, clock);
    assert |r.ready + r.job| == |multiset(r.ready + r.job)| == |multiset(ready + job)| == |ready + job|;
  }

  /** A second check at the same clock moves nothing. */
  lemma ArrivalCheckerIdempotent(ready: seq<Process>, job: seq<Process>, clock: int)
    ensures var r := ArrivalChecker(ready, job, clock);
      ArrivalChecker(r.ready, r.job, clock) == r
  {
    var r := ArrivalChecker(ready, job, clock);
    FilterNoneKept(r.job, Window(clock, clock));
    FilterAllKept(r.job, Outside(clock, clock));
  }

  /** The records `arrivalChecker` admits over the clock values `lo..hi`, one
      check per value: by arrival time, and in job queue order within one. */
  function Arrivals(job: seq<Process>, lo: int, hi: int): (r: seq<Process>)
    ensures forall i :: 0 <= i < |r| ==> lo <= r[i].arrival <= hi
    decreases hi - lo
  {
    if hi < lo then []
    else Arrivals(job, lo, hi - 1) + Filter(job, Window(hi, hi))
  }

  /** A single check admits the records arriving at that clock value. */
  lemma ArrivalsSingle(job: seq<Process>, t: int)
    ensures Arrivals(job, t, t) == Filter(job, Window(t, t))
  {
    assert Arrivals(job, t, t - 1) == [];
  }

  /** A check at one clock value splits the job queue in two. */
  lemma PointSplit(job: seq<Process>, t: int)
    ensures multiset(Filter(job, Window(t, t))) + multiset(Filter(job, Outside(t, t))) == multiset(job)
  {
    ArrivalCheckerConserves([], job, t);
    assert [] + Filter(job, Window(t, t)) == Filter(job, Window(t, t));
  }

  /** One more check, at `hi + 1`, appends the records arriving then. */
  lemma ArrivalsStep(job: seq<Process>, lo: int, hi: int)
    requires lo <= hi + 1
    ensures Arrivals(job, lo, hi + 1) == Arrivals(job, lo, hi) + Filter(job, Window(hi + 1, hi + 1))
  {
  }

  /** The checks over `lo..hi` admit exactly the records the window keeps
      back from the job queue: nothing is lost or admitted twice. */
  lemma {:induction false} ArrivalsConserve(job: seq<Process>, lo: int, hi: int)
    ensures multiset(Arrivals(job, lo, hi)) + multiset(Filter(job, Outside(lo, hi))) == multiset(job)
    decreases hi - lo
  {
    if hi < lo {
      FilterAllKept(job, Outside(lo, hi));
    } else {
      ArrivalsConserve(job, lo, hi - 1);
      var before := Filter(job, Outside(lo, hi - 1));
      OutsideAdjacent(job, lo, hi - 1, hi);
      WindowAfterOutside(job, lo, hi - 1, hi);
      PointSplit(before, hi);
    }
  }
}

=== FILE: filters.dfy ===
/** Order-preserving selection of records from a queue. Both the arrival
    check (`arrival == CLOCK`, or a span of clock values) and the stability
    of the priority sort (records of one priority) are stated with it. */
module Filters {

  import opened Records

  /** Which records to keep: those whose arrival lies in `lo..hi`, those
      whose arrival lies outside it, or those of one priority value. */
  datatype Selector =
    | Window(lo: int, hi: int)
    | Outside(lo: int, hi: int)
    | PriorityIs(prio: int)

  predicate Keep(sel: Selector, p: Process) {
    match sel
    case Window(lo, hi) => lo <= p.arrival <= hi
    case Outside(lo, hi) => !(lo <= p.arrival <= hi)
    case PriorityIs(v) => p.priority == v
  }

  /** The records of `s` that `sel` keeps, in their order in `s`. */
  function Filter(s: seq<Process>, sel: Selector): (r: seq<Process>)
    ensures |r| <= |s|
    ensures forall i :: 0 <= i < |r| ==> Keep(sel, r[i])
  {
    if |s| == 0 then []
    else (if Keep(sel, s[0]) then [s[0]] else []) + Filter(s[1..], sel)
  }

  lemma {:induction false} FilterConcat(a: seq<Process>, b: seq<Process>, sel: Selector)
    ensures Filter(a + b, sel) == Filter(a, sel) + Filter(b, sel)
    decreases |a|
  {
    if |a| == 0 {
      assert a + b == b;
    } else {
      assert (a + b)[1..] == a[1..] + b;
      FilterConcat(a[1..], b, sel);
    }
  }

  lemma FilterSplit3(pre: seq<Process>, mid: seq<Process>, post: seq<Process>, sel: Selector)
    ensures Filter(pre + mid + post, sel) == Filter(pre, sel) + Filter(mid, sel) + Filter(post, sel)
  {
    FilterConcat(pre + mid, post, sel);
    FilterConcat(pre, mid, sel);
  }

  /** Multiset bookkeeping for one record sent to one of two sides. */
  lemma SplitCons(h: Process, rest: seq<Process>, a: seq<Process>, b: seq<Process>, w: seq<Process>, o: seq<Process>)
    requires multiset(w) + multiset(o) == multiset(rest)
    requires (a == [h] + w && b == o) || (a == w && b == [h] + o)
    ensures multiset(a) + multiset(b) == multiset([h] + rest)
  {
  }

  /** A window and its outside split a queue in two: every record goes to
      exactly one side. */
  lemma {:induction false} WindowOutsideSplit(s: seq<Process>, lo: int, hi: int)
    ensures multiset(Filter(s, Window(lo, hi))) + multiset(Filter(s, Outside(lo, hi))) == multiset(s)
    decreases |s|
  {
    if |s| > 0 {
      var h, rest := s[0], s[1..];
      WindowOutsideSplit(rest, lo, hi);
      assert s == [h] + rest;
      SplitCons(h, rest, Filter(s, Window(lo, hi)), Filter(s, Outside(lo, hi)),
                Filter(rest, Window(lo, hi)), Filter(rest, Outside(lo, hi)));
    }
  }

  lemma {:induction false} FilterAllKept(s: seq<Process>, sel: Selector)
    requires forall i :: 0 <= i < |s| ==> Keep(sel, s[i])
    ensures Filter(s, sel) == s
    decreases |s|
  {
    if |s| > 0 {
      FilterAllKept(s[1..], sel);
    }
  }

  lemma {:induction false} FilterNoneKept(s: seq<Process>, sel: Selector)
    requires forall i :: 0 <= i < |s| ==> !Keep(sel, s[i])
    ensures Filter(s, sel) == []
    decreases |s|
  {
    if |s| > 0 {
      FilterNoneKept(s[1..], sel);
    }
  }

  /** Leaving out two adjacent spans of arrival times one after the other is
      leaving out their union at once. */
  lemma {:induction false} OutsideAdjacent(s: seq<Process>, lo: int, mid: int, hi: int)
    requires lo <= mid + 1 && mid <= hi
    ensures Filter(Filter(s, Outside(lo, mid)), Outside(mid + 1, hi)) == Filter(s, Outside(lo, hi))
    decreases |s|
  {
    if |s| > 0 {
      var head, tail := s[0], s[1..];
      OutsideAdjacent(tail, lo, mid, hi);
      var inner := Filter(tail, Outside(lo, mid));
      assert Filter(s, Outside(lo, hi))
        == (if Keep(Outside(lo, hi), head) then [head] else []) + Filter(tail, Outside(lo, hi));
      if Keep(Outside(lo, mid), head) {
        var x := Filter(s, Outside(lo, mid));
        assert x == [head] + inner;
        assert x[0] == head && x[1..] == inner;
        assert Filter(x, Outside(mid + 1, hi))
          == (if Keep(Outside(mid + 1, hi), head) then [head] else []) + Filter(inner, Outside(mid + 1, hi));
        assert Keep(Outside(mid + 1, hi), head) <==> Keep(Outside(lo, hi), head);
      } else {
        assert Filter(s, Outside(lo, mid)) == inner;
        assert !Keep(Outside(lo, hi), head);
      }
    }
  }

  /** Records arriving at `t` survive a filter that only drops a window not
      containing `t`. */
  lemma {:induction false} WindowAfterOutside(s: seq<Process>, lo: int, hi: int, t: int)
    requires t < lo || hi < t
    ensures Filter(Filter(s, Outside(lo, hi)), Window(t, t)) == Filter(s, Window(t, t))
    decreases |s|
  {
    if |s| > 0 {
      WindowAfterOutside(s[1..], lo, hi, t);
      if Keep(Outside(lo, hi), s[0]) {
        assert Filter(s, Outside(lo, hi)) == [s[0]] + Filter(s[1..], Outside(lo, hi));
      } else {
        assert Filter(s, Outside(lo, hi)) == Filter(s[1..], Outside(lo, hi));
        assert !Keep(Window(t, t), s[0]);
      }
    }
  }

  /** Once a window has been taken out, checking a clock value inside it
      again finds nothing more to take. */
  lemma OutsideWithin(s: seq<Process>, lo: int, hi: int, t: int)
    requires lo <= t <= hi
    ensures Filter(Filter(s, Outside(lo, hi)), Outside(t, t)) == Filter(s, Outside(lo, hi))
  {
    var inner := Filter(s, Outside(lo, hi));
    forall i | 0 <= i < |inner|
      ensures Keep(Outside(t, t), inner[i])
    {
      assert Keep(Outside(lo, hi), inner[i]);
    }
    FilterAllKept(inner, Outside(t, t));
  }

  /** ... and admits nothing. */
  lemma WindowWithin(s: seq<Process>, lo: int, hi: int, t: int)
    requires lo <= t <= hi
    ensures Filter(Filter(s, Outside(lo, hi)), Window(t, t)) == []
  {
    var inner := Filter(s, Outside(lo, hi));
    forall i | 0 <= i < |inner|
      ensures !Keep(Window(t, t), inner[i])
    {
      assert Keep(Outside(lo, hi), inner[i]);
    }
    FilterNoneKept(inner, Window(t, t));
  }
}

=== FILE: npp.dfy ===
/** `npp`: non-preemptive priority scheduling. The current process runs its
    whole burst; on every tick the arrivals are admitted and the ready queue
    is re-sorted by priority; on completion the head of the sorted ready
    queue is next. */
module NonPreemptive {

  import opened Records
  import opened Queue
  import opened Filters
  import opened Arrival
  import opened PrioritySort
  import opened Simulation

  function Max0(n: int): int {
    if n > 0 then n else 0
  }

  /** `arrivalChecker` at `clock` followed by `insSortPriority` when the ready
      queue is not empty (lines 356-357 and 362-363): the arrivals join, the
      queue is in priority order, and the rest stays pending. Within one
      priority value the ready records keep their order: those already
      ready first, then the arrivals in job queue order. */
  function Admit(ready: seq<Process>, job: seq<Process>, clock: int): (r: Queues)
    ensures Sorted(r.ready)
    ensures r.job == Filter(job, Outside(clock, clock))
    ensures multiset(r.ready + r.job) == multiset(ready + job)
    ensures forall v :: Filter(r.ready, PriorityIs(v)) == Filter(ready + Filter(job, Window(clock, clock)), PriorityIs(v))
  {
    var q := ArrivalChecker(ready, job, clock);
    ArrivalCheckerConserves(ready, job, clock);
    if |q.ready| > 0 then Queues(InsSortPriority(q.ready), q.job) else q
  }

  /** One tick of the `for` loop of lines 354-358: the clock advances, the
      arrivals at the new clock value join the ready queue, which is sorted
      again; the running record is not touched. */
  function Tick(st: Sim): (r: Sim)
    ensures r.clock == st.clock + 1 && r.current == st.current && r.completed == st.completed
  {
    var t := st.clock + 1;
    var q := Admit(st.ready, st.job, t);
    st.(clock := t, ready := q.ready, job := q.job)
  }

  /** The state after the arrival checks at every clock value of `lo..hi`,
      with the ready queue sorted once at the end. */
  function Swept(st: Sim, lo: int, hi: int): Sim {
    st.(clock := hi,
        ready := InsSortPriority(st.ready + Arrivals(st.job, lo, hi)),
        job := Filter(st.job, Outside(lo, hi)))
  }

  /** The `for` loop of lines 354-358 run from `st` until the clock reads
      `until`, in closed form (no tick when `until` is not ahead of the
      clock): every record arriving at a clock value passed over joins the
      ready queue, which ends up in priority order. The running record is
      not touched, so nothing preempts it. */
  function Burst(st: Sim, until: int): (r: Sim)
    ensures r.clock == if until > st.clock then until else st.clock
    ensures r.current == st.current && r.completed == st.completed
    ensures multiset(r.ready + r.job) == multiset(st.ready + st.job)
  {
    if until <= st.clock then st
    else
      ArrivalsConserve(st.job, st.clock + 1, until);
      Swept(st, st.clock + 1, until)
  }

  /** Line 364: the next current process is the head of the sorted ready
      queue, or NULL when nothing is ready. */
  function SelectNext(clock: int, q: Queues, done: seq<Process>): (r: Sim)
    requires Sorted(q.ready)
    ensures r.clock == clock && r.completed == done && r.job == q.job
    ensures Running(r) + r.ready == q.ready
    ensures r.current.Some? ==>
      forall i :: 0 <= i < |r.ready| ==> r.current.value.priority <= r.ready[i].priority
    ensures r.current.None? <==> q.ready == []
  {
    match Dequeue(q.ready)
    case None => Sim(clock, None, [], q.job, done)
    case Some(p) =>
      assert q.ready[0] == p.head && q.ready[1..] == p.rest;
      SortedPairwise(q.ready);
      assert forall i :: 0 <= i < |p.rest| ==> p.rest[i] == q.ready[i + 1];
      Sim(clock, Some(p.head), p.rest, q.job, done)
  }

  /** One turn of the outer `while` of `npp` (lines 354-364): run the current
      process for its whole burst, complete it, admit and sort once more,
      and pick the next. */
  function NppStep(st: Sim): (r: Sim)
    requires st.current.Some?
    // the current process runs its whole burst without preemption
    ensures r.clock == st.clock + Max0(st.current.value.burst)
    // and is appended, completed at the clock now, to the completed queue
    ensures |r.completed| == |st.completed| + 1 && r.completed[..|st.completed|] == st.completed
    ensures var f := r.completed[|st.completed|];
      KeyOf(f) == KeyOf(st.current.value) && f.finish == r.clock && Completed(f)
    // the next process has the lowest priority value among the ready ones
    ensures r.current.Some? ==>
      forall i :: 0 <= i < |r.ready| ==> r.current.value.priority <= r.ready[i].priority
    // the run ends exactly when nothing is ready, whatever is still pending
    ensures r.current.None? ==> r.ready == []
    // one record fewer to schedule
    ensures |Live(r)| == |Live(st)| - 1
    // and none lost or invented: the completed one keeps its key
    ensures multiset(Keys(Everything(r))) == multiset(Keys(Everything(st)))
  {
    var cur := st.current.value;
    var run := Burst(st, st.clock + cur.burst);
    var q := Admit(run.ready, run.job, run.clock);
    var fin := Complete(cur, run.clock);
    assert |q.ready + q.job| == |multiset(q.ready + q.job)| == |multiset(st.ready + st.job)| == |st.ready + st.job|;
    KeysMoved(q.ready + q.job, st.ready, st.job, st.completed, cur, fin);
    SelectNext(run.clock, q, Enqueue(st.completed, fin))
  }

  /** The outer `while (currentProcess != NULL)` of `npp`: turns until
      `dequeue` of the ready queue yields NULL. Each turn completes one
      record, so the number of records left to schedule bounds the run. */
  function NppRun(st: Sim): (r: Sim)
    ensures r.current.None?
    ensures st.current.Some? ==> r.ready == []
    ensures st.current.None? ==> r == st
    ensures r.clock >= st.clock
    ensures |r.completed| >= |st.completed| && r.completed[..|st.completed|] == st.completed
    decreases |Live(st)|
  {
    if st.current.None? then st
    else
      var next := NppStep(st);
      var r := NppRun(next);
      PrefixTrans(r.completed, next.completed, st.completed);
      r
  }

  /** `npp` as a whole. */
  function Npp(input: seq<Process>): (r: Sim)
    ensures r.current.None? && r.ready == []
    ensures |input| == 0 ==> r.completed == [] && r.job == []
  {
    NppRun(Start(input))
  }

}

=== FILE: npp_properties.dfy ===
/** Properties of the `npp` model: the closed-form burst is the tick loop,
    and a run conserves its records, completes them in finishing order and
    runs the input head first. */
module NppProperties {

  import opened Records
  import opened Queue
  import opened Filters
  import opened Arrival
  import opened PrioritySort
  import opened Simulation
  import opened NonPreemptive
  /** `Tick` at a clock value named by the caller. */
  lemma TickAt(st: Sim, t: int)
    requires t == st.clock + 1
    ensures Tick(st) == st.(clock := t, ready := Admit(st.ready, st.job, t).ready,
                                        job := Admit(st.ready, st.job, t).job)
  {
  }

  lemma TickExtendsJob(st: Sim, lo: int, hi: int)
    requires lo <= hi
    ensures Tick(Swept(st, lo, hi)).job == Swept(st, lo, hi + 1).job
  {
    TickAt(Swept(st, lo, hi), hi + 1);
    OutsideAdjacent(st.job, lo, hi, hi + 1);
  }

  lemma TickExtendsReady(st: Sim, lo: int, hi: int)
    requires lo <= hi
    ensures Tick(Swept(st, lo, hi)).ready == Swept(st, lo, hi + 1).ready
  {
    var t := hi + 1;
    var b := Swept(st, lo, hi);
    TickAt(b, t);
    var before := st.ready + Arrivals(st.job, lo, hi);
    var window := Filter(st.job, Window(t, t));
    WindowAfterOutside(st.job, lo, hi, t);
    assert ArrivalChecker(b.ready, b.job, t).ready == InsSortPriority(before) + window;
    ResortAppended(before, window);
    ArrivalsStep(st.job, lo, hi);
    AppendAssoc(st.ready, Arrivals(st.job, lo, hi), window);
  }

  /** One tick after the checks over `lo..hi` is the closed form over
      `lo..hi + 1`: the arrivals at `hi + 1` join the queue sorted so far,
      and sorting again gives what a single sort over everything gives. */
  lemma TickExtends(st: Sim, lo: int, hi: int)
    requires lo <= hi
    ensures Tick(Swept(st, lo, hi)) == Swept(st, lo, hi + 1)
  {
    TickExtendsJob(st, lo, hi);
    TickExtendsReady(st, lo, hi);
  }

  /** A single tick is the check at the one clock value it reaches. */
  lemma TickIsSwept(st: Sim)
    ensures Tick(st) == Swept(st, st.clock + 1, st.clock + 1)
  {
    var t := st.clock + 1;
    TickAt(st, t);
    ArrivalsSingle(st.job, t);
  }

  /** Running until the clock already reached changes nothing. */
  lemma BurstNone(st: Sim)
    ensures Burst(st, st.clock) == st
  {
  }

  /** Running one tick ahead is one `Tick`. */
  lemma BurstFirst(st: Sim)
    ensures Burst(st, st.clock + 1) == Tick(st)
  {
    TickIsSwept(st);
  }

  lemma BurstAhead(st: Sim, until: int)
    requires until > st.clock
    ensures Burst(st, until) == Swept(st, st.clock + 1, until)
  {
  }

  lemma TickAfterBurst(st: Sim, until: int)
    requires until > st.clock
    ensures Tick(Burst(st, until)) == Swept(st, st.clock + 1, until + 1)
  {
    BurstAhead(st, until);
    TickExtends(st, st.clock + 1, until);
  }

  /** Running one tick further than at least one tick is one more `Tick`. */
  lemma BurstNext(st: Sim, until: int)
    requires until > st.clock
    ensures Burst(st, until + 1) == Tick(Burst(st, until))
  {
    BurstAhead(st, until + 1);
    TickAfterBurst(st, until);
  }

  /** A turn is the burst, then one more admission, then the dispatch. */
  lemma NppStepIs(st: Sim)
    requires st.current.Some?
    ensures var run := Burst(st, st.clock + st.current.value.burst);
      NppStep(st) == SelectNext(run.clock, Admit(run.ready, run.job, run.clock),
                                st.completed + [Complete(st.current.value, run.clock)])
  {
  }

  /** A ready queue sorted after the checks over `lo..t`: the check at `t`
      that follows finds nothing more to admit, and the sort changes nothing. */
  lemma AdmitAfterSweep(ready: seq<Process>, job: seq<Process>, lo: int, t: int)
    requires lo <= t && Sorted(ready)
    ensures Admit(ready, Filter(job, Outside(lo, t)), t) == Queues(ready, Filter(job, Outside(lo, t)))
  {
    var pending := Filter(job, Outside(lo, t));
    WindowWithin(job, lo, t, t);
    OutsideWithin(job, lo, t, t);
    assert ready + [] == ready;
    assert ArrivalChecker(ready, pending, t) == Queues(ready, pending);
    if |ready| > 0 {
      SortIdempotent(ready);
    }
  }

  /** The records that compete for the processor when the current process
      completes: those ready when it was dispatched, then those the checks
      during its burst admitted, clock value by clock value. A burst that
      takes no time has one check, at the clock now. */
  function Contenders(st: Sim): seq<Process>
    requires st.current.Some?
  {
    var b := st.current.value.burst;
    if b > 0 then st.ready + Arrivals(st.job, st.clock + 1, st.clock + b)
    else st.ready + Filter(st.job, Window(st.clock, st.clock))
  }

  /** The dispatch after a burst whose sweep left `ready` sorted and the
      job queue at `pending`: the queues come out as they went in. */
  lemma DispatchAfterSweep(st: Sim, r: Sim, ready: seq<Process>, pending: seq<Process>, lo: int, t: int)
    requires st.current.Some? && lo <= t && Sorted(ready) && pending == Filter(st.job, Outside(lo, t))
    requires var run := Burst(st, st.clock + st.current.value.burst);
      run.clock == t && run.ready == ready && run.job == pending
    requires r == NppStep(st)
    ensures Running(r) + r.ready == ready && r.job == pending
  {
    AdmitAfterSweep(ready, st.job, lo, t);
    NppStepIs(st);
  }

  /** A turn with a burst that takes time: the next process and the ready
      queue behind it are the contenders sorted by priority, the ties in the
      order they became ready, and the job queue keeps the records not
      arriving during the burst. */
  lemma NppStepBurstOrder(st: Sim, r: Sim)
    requires st.current.Some? && st.current.value.burst > 0 && r == NppStep(st)
    ensures Running(r) + r.ready == InsSortPriority(Contenders(st))
    ensures r.job == Filter(st.job, Outside(st.clock + 1, st.clock + st.current.value.burst))
  {
    var t := st.clock + st.current.value.burst;
    BurstAhead(st, t);
    DispatchAfterSweep(st, r, InsSortPriority(Contenders(st)), Filter(st.job, Outside(st.clock + 1, t)), st.clock + 1, t);
  }

  /** A turn with a burst that takes no time: one check at the clock now,
      then the sort. */
  lemma NppStepInstantOrder(st: Sim, r: Sim)
    requires st.current.Some? && st.current.value.burst <= 0 && r == NppStep(st)
    ensures Running(r) + r.ready == InsSortPriority(Contenders(st))
    ensures r.job == Filter(st.job, Outside(st.clock, st.clock))
  {
    var q := ArrivalChecker(st.ready, st.job, st.clock);
    assert Burst(st, st.clock + st.current.value.burst) == st;
    assert Admit(st.ready, st.job, st.clock).ready == InsSortPriority(q.ready);
    NppStepIs(st);
  }

  /** Lines 354-364 as a whole: after a turn, the next process followed by
      the ready queue is exactly the contenders in priority order, first
      come first served among equal priorities. */
  lemma NppStepOrder(st: Sim, r: Sim)
    requires st.current.Some? && r == NppStep(st)
    ensures Running(r) + r.ready == InsSortPriority(Contenders(st))
    ensures multiset(Running(r) + r.ready) == multiset(Contenders(st))
    ensures forall v :: Filter(Running(r) + r.ready, PriorityIs(v)) == Filter(Contenders(st), PriorityIs(v))
  {
    if st.current.value.burst > 0 {
      NppStepBurstOrder(st, r);
    } else {
      NppStepInstantOrder(st, r);
    }
  }

  /** The process dispatched next has the lowest priority value of all the
      contenders, and among those of that value it is the one that became
      ready first; the run ends exactly when there are no contenders. */
  lemma NppNextIsEarliestMinimum(st: Sim, r: Sim)
    requires st.current.Some? && r == NppStep(st)
    ensures var c := Contenders(st);
      && (r.current.None? <==> c == [])
      && (r.current.Some? ==>
            && (forall i :: 0 <= i < |c| ==> r.current.value.priority <= c[i].priority)
            && |Filter(c, PriorityIs(r.current.value.priority))| > 0
            && Filter(c, PriorityIs(r.current.value.priority))[0] == r.current.value)
  {
    var c := Contenders(st);
    var sorted := InsSortPriority(c);
    NppStepOrder(st, r);
    assert |sorted| == |c|;
    if |c| > 0 {
      SortHeadIsEarliestMinimum(c);
      assert r.current.Some?;
      assert sorted[0] == r.current.value;
    } else {
      assert Running(r) + r.ready == [];
    }
  }

  lemma {:induction false} NppRunConserves(st: Sim)
    ensures multiset(Keys(Everything(NppRun(st)))) == multiset(Keys(Everything(st)))
    decreases |Live(st)|
  {
    if st.current.Some? {
      NppRunConserves(NppStep(st));
    }
  }

  /** Every record the run completes has finish equal to the clock at its
      completion and waiting = finish - arrival - burst, and the completed
      queue is in finishing order, since the clock only moves forward. */
  lemma {:induction false} NppRunChronological(st: Sim)
    requires Chronological(st.completed, st.clock)
    ensures Chronological(NppRun(st).completed, NppRun(st).clock)
    decreases |Live(st)|
  {
    if st.current.Some? {
      var next := NppStep(st);
      var f := next.completed[|st.completed|];
      assert next.completed == st.completed + [f];
      ChronologicalAppend(st.completed, st.clock, next.clock, f);
      NppRunChronological(next);
    }
  }

  /** At the end of `npp` every input record is either completed or still
      pending (never admitted), none twice. */
  lemma NppConserves(input: seq<Process>)
    ensures var r := Npp(input);
      multiset(Keys(r.job + r.completed)) == multiset(Keys(input))
  {
    NppRunConserves(Start(input));
    EverythingWhenIdle(Npp(input));
  }

  /** The completed queue `npp` hands back is in finishing order, with
      finish and waiting consistent for every record. */
  lemma NppChronological(input: seq<Process>)
    ensures Chronological(Npp(input).completed, Npp(input).clock)
  {
    NppRunChronological(Start(input));
  }

  /** The input head, run from clock 0 whatever its arrival time and
      priority, is the first to complete, at the end of its burst. */
  lemma NppHeadFirst(input: seq<Process>)
    requires |input| > 0
    ensures var r := Npp(input);
      && |r.completed| > 0
      && KeyOf(r.completed[0]) == KeyOf(input[0])
      && r.completed[0].finish == Max0(input[0].burst)
  {
    var st := Start(input);
    var first := NppStep(st);
    assert NppRun(st) == NppRun(first);
    var r := NppRun(first);
    assert r.completed[..1] == first.completed;
    assert r.completed[0] == r.completed[..1][0];
  }

  /** An input head arriving after clock 0 still runs from clock 0, so it
      finishes before its arrival plus its burst, with a negative waiting
      time (lines 348, 355 and 359). */
  lemma NppHeadEarly(input: seq<Process>)
    requires |input| > 0 && input[0].arrival > 0 && input[0].burst >= 0
    ensures var r := Npp(input);
      && |r.completed| > 0
      && !Feasible(r.completed[0])
      && r.completed[0].waiting == -input[0].arrival
  {
    NppHeadFirst(input);
    NppChronological(input);
  }

  /** The record of one row arriving at 5 with a burst of 2, run alone,
      completes at 2 and has waited -5. */
  lemma NppHeadEarlyExample(p: Process)
    requires p == Process(1, 5, 2, 0, 0, 2, 1)
    ensures Npp([p]).completed[0] == Complete(p, 2) && Complete(p, 2).waiting == -5
  {
    NppHeadEarly([p]);
    NppHeadFirst([p]);
  }

  /** Every record of `s` has arrived by `clock`. */
  predicate ArrivedBy(s: seq<Process>, clock: int) {
    forall i :: 0 <= i < |s| ==> s[i].arrival <= clock
  }

  /** Records taken from a queue that has arrived by `clock` have too. */
  lemma ArrivedBySub(a: seq<Process>, b: seq<Process>, clock: int)
    requires multiset(a) <= multiset(b) && ArrivedBy(b, clock)
    ensures ArrivedBy(a, clock)
  {
    forall i | 0 <= i < |a|
      ensures a[i].arrival <= clock
    {
      assert a[i] in multiset(a);
      assert a[i] in b;
    }
  }

  /** Every contender has arrived by the clock at which the turn ends: the
      ready ones before, the others at a check during the turn. */
  lemma ContendersArrived(st: Sim)
    requires st.current.Some? && ArrivedBy(st.ready, st.clock)
    ensures ArrivedBy(Contenders(st), st.clock + Max0(st.current.value.burst))
  {
    var b := st.current.value.burst;
    var c := Contenders(st);
    var end := st.clock + Max0(b);
    var admitted := if b > 0 then Arrivals(st.job, st.clock + 1, st.clock + b)
                    else Filter(st.job, Window(st.clock, st.clock));
    assert c == st.ready + admitted;
    forall i | 0 <= i < |c|
      ensures c[i].arrival <= end
    {
      if i >= |st.ready| {
        assert c[i] == admitted[i - |st.ready|];
      }
    }
  }

  /** A turn started with every ready record arrived ends with the next
      process and the ready queue arrived by the new clock. */
  lemma NppStepArrived(st: Sim, r: Sim)
    requires st.current.Some? && r == NppStep(st) && ArrivedBy(st.ready, st.clock)
    ensures ArrivedBy(Running(r) + r.ready, r.clock)
  {
    NppStepOrder(st, r);
    ContendersArrived(st);
    ArrivedBySub(Running(r) + r.ready, Contenders(st), r.clock);
  }

  /** A process dispatched after its arrival completes no earlier than its
      arrival plus its burst: the turn lasts the burst, or no time for a
      burst of 0 or less. */
  lemma NppStepFeasible(st: Sim, r: Sim)
    requires st.current.Some? && r == NppStep(st) && st.current.value.arrival <= st.clock
    ensures Feasible(r.completed[|st.completed|])
  {
  }

  /** Every record of `done` from position `k` on is feasible. */
  predicate FeasibleAfter(done: seq<Process>, k: int) {
    forall i :: k <= i < |done| && 0 <= i ==> Feasible(done[i])
  }

  /** One more feasible record in front of a run of feasible ones. */
  lemma FeasibleFrom(done: seq<Process>, prefix: seq<Process>, k: nat)
    requires |prefix| == k + 1 <= |done| && done[..k + 1] == prefix && Feasible(prefix[k])
    requires FeasibleAfter(done, k + 1)
    ensures FeasibleAfter(done, k)
  {
    assert done[k] == prefix[k];
  }

  /** The running record and the ready queue, split. */
  lemma ArrivedBySplit(st: Sim)
    requires st.current.Some? && ArrivedBy(Running(st) + st.ready, st.clock)
    ensures st.current.value.arrival <= st.clock && ArrivedBy(st.ready, st.clock)
  {
    var s := Running(st) + st.ready;
    assert s == [st.current.value] + st.ready && s[0] == st.current.value;
    ArrivedBySub(st.ready, s, st.clock);
  }

  /** A run from a state whose running and ready records have all arrived
      completes every record at or after its arrival plus its burst. */
  lemma {:induction false} NppRunFeasible(st: Sim)
    requires ArrivedBy(Running(st) + st.ready, st.clock)
    ensures FeasibleAfter(NppRun(st).completed, |st.completed|)
    decreases |Live(st)|
  {
    if st.current.Some? {
      ArrivedBySplit(st);
      var next := NppStep(st);
      NppStepArrived(st, next);
      NppStepFeasible(st, next);
      NppRunFeasible(next);
      FeasibleFrom(NppRun(next).completed, next.completed, |st.completed|);
    }
  }

  /** Every record `npp` completes after the input head has finished no
      earlier than its arrival plus its burst: its waiting time is 0 or
      more. Only the head, run from clock 0, can finish early. */
  lemma NppLaterFeasible(input: seq<Process>)
    ensures var r := Npp(input);
      forall i :: 1 <= i < |r.completed| ==> Feasible(r.completed[i]) && r.completed[i].waiting >= 0
  {
    NppChronological(input);
    if |input| > 0 {
      NppLaterFromStart(Start(input));
    }
  }

  /** The same from the opening state: the first turn leaves every ready
      record arrived, and the run from there is feasible. */
  lemma NppLaterFromStart(st: Sim)
    requires st.current.Some? && st.ready == [] && st.completed == []
    ensures FeasibleAfter(NppRun(st).completed, 1)
  {
    var first := NppStep(st);
    NppStepArrived(st, first);
    NppRunFeasible(first);
    assert NppRun(st) == NppRun(first);
  }
}

=== FILE: priority_sort.dfy ===
/** `insSortPriority` and `swapWithNext`: insertion sort of the ready queue,
    ascending by priority value, by swapping the data of adjacent nodes. */
module PrioritySort {

  import opened Records
  import opened Filters

  /** The first `n` records are in non-decreasing priority order. */
  predicate SortedPrefix(s: seq<Process>, n: int)
    requires 0 <= n <= |s|
  {
    forall a, b :: 0 <= a < b < n ==> s[a].priority <= s[b].priority
  }

  /** Non-decreasing priority order, neighbour by neighbour. */
  predicate Sorted(s: seq<Process>)
    decreases |s|
  {
    |s| <= 1 || (s[0].priority <= s[1].priority && Sorted(s[1..]))
  }

  /** Ordered neighbours are ordered pairs: the two readings of sortedness agree. */
  lemma {:induction false} SortedPairwise(s: seq<Process>)
    ensures Sorted(s) <==> SortedPrefix(s, |s|)
    decreases |s|
  {
    if |s| > 1 {
      var t := s[1..];
      SortedPairwise(t);
      if Sorted(s) {
        forall a, b | 0 <= a < b < |s|
          ensures s[a].priority <= s[b].priority
        {
          if a > 0 {
            assert t[a - 1] == s[a] && t[b - 1] == s[b];
          } else if b > 1 {
            assert t[0] == s[1] && t[b - 1] == s[b];
          }
        }
      }
      if SortedPrefix(s, |s|) {
        forall a, b | 0 <= a < b < |t|
          ensures t[a].priority <= t[b].priority
        {
          assert t[a] == s[a + 1] && t[b] == s[b + 1];
        }
      }
    }
  }

  /** `swapWithNext`: the seven data fields of node `k` and of its successor
      change places; the links stay, so every other position is untouched. */
  function SwapWithNext(s: seq<Process>, k: int): (r: seq<Process>)
    requires 0 <= k < |s| - 1
    ensures |r| == |s| && r[k] == s[k + 1] && r[k + 1] == s[k]
    ensures forall i :: 0 <= i < |s| && i != k && i != k + 1 ==> r[i] == s[i]
  {
    s[..k] + [s[k + 1], s[k]] + s[k + 2..]
  }

  lemma SwapPermutes(s: seq<Process>, k: int)
    requires 0 <= k < |s| - 1
    ensures multiset(SwapWithNext(s, k)) == multiset(s)
  {
    assert s == s[..k] + [s[k], s[k + 1]] + s[k + 2..];
  }

  /** Two records of different priority in either order: the same records
      of any one priority value. */
  lemma PairKeepsPriorityClass(x: Process, y: Process, v: int)
    requires x.priority != y.priority
    ensures Filter([x, y], PriorityIs(v)) == Filter([y, x], PriorityIs(v))
  {
    var sel := PriorityIs(v);
    FilterConcat([x], [y], sel);
    FilterConcat([y], [x], sel);
    assert [x] + [y] == [x, y] && [y] + [x] == [y, x];
  }

  lemma SwapKeepsPriorityClass(s: seq<Process>, k: int, v: int)
    requires 0 <= k < |s| - 1
    requires s[k].priority != s[k + 1].priority
    ensures Filter(SwapWithNext(s, k), PriorityIs(v)) == Filter(s, PriorityIs(v))
  {
    var sel := PriorityIs(v);
    var x, y := s[k], s[k + 1];
    var pre, post := s[..k], s[k + 2..];
    assert s == pre + [x, y] + post;
    assert SwapWithNext(s, k) == pre + [y, x] + post;
    FilterSplit3(pre, [x, y], post, sel);
    FilterSplit3(pre, [y, x], post, sel);
    PairKeepsPriorityClass(x, y, v);
  }

  /** Exchanging two neighbours of different priority leaves the order of
      every group of equal-priority records as it was. */
  lemma SwapKeepsPriorityClasses(s: seq<Process>, k: int)
    requires 0 <= k < |s| - 1
    requires s[k].priority != s[k + 1].priority
    ensures forall v :: Filter(SwapWithNext(s, k), PriorityIs(v)) == Filter(s, PriorityIs(v))
  {
    forall v
      ensures Filter(SwapWithNext(s, k), PriorityIs(v)) == Filter(s, PriorityIs(v))
    {
      SwapKeepsPriorityClass(s, k, v);
    }
  }

  /** The inner `while` of `insSortPriority`, with `i` at position `k`: while
      the node at `k` has a strictly greater priority than its successor,
      swap them and step back; stop at the head or at the first pair in
      order. */
  function BubbleLeft(s: seq<Process>, k: int): (r: seq<Process>)
    requires -1 <= k < |s| - 1
    ensures |r| == |s|
    ensures multiset(r) == multiset(s)
    ensures forall v :: Filter(r, PriorityIs(v)) == Filter(s, PriorityIs(v))
    ensures forall i :: k + 1 < i < |s| ==> r[i] == s[i]
    decreases k + 1
  {
    if k < 0 || s[k].priority <= s[k + 1].priority then s
    else
      SwapPermutes(s, k);
      SwapKeepsPriorityClasses(s, k);
      BubbleLeft(SwapWithNext(s, k), k - 1)
  }

  /** Mid-insertion: the record at `m` is being moved left into the sorted
      run `s[..j + 1]`; apart from it the run is sorted, and it is strictly
      smaller than everything to its right. */
  predicate Inserting(s: seq<Process>, m: int, j: int)
    requires 0 <= m <= j < |s|
  {
    && SortedPrefix(s, m)
    && (forall a, b :: m < a < b <= j ==> s[a].priority <= s[b].priority)
    && (forall a, b :: 0 <= a < m < b <= j ==> s[a].priority <= s[b].priority)
    && (forall b :: m < b <= j ==> s[m].priority < s[b].priority)
  }

  /** A swap moves the inserted record one place left and keeps the shape. */
  lemma SwapInserting(s: seq<Process>, k: int, j: int)
    requires 0 <= k < j < |s|
    requires Inserting(s, k + 1, j) && s[k].priority > s[k + 1].priority
    ensures Inserting(SwapWithNext(s, k), k, j)
  {
  }

  /** When the inserted record meets a predecessor no greater than it (or
      the head), the whole run up to `j` is sorted. */
  lemma InsertingDone(s: seq<Process>, m: int, j: int)
    requires 0 <= m <= j < |s|
    requires Inserting(s, m, j) && (m == 0 || s[m - 1].priority <= s[m].priority)
    ensures SortedPrefix(s, j + 1)
  {
  }

  lemma {:induction false} BubbleLeftSorts(s: seq<Process>, k: int, j: int)
    requires -1 <= k < j < |s|
    requires Inserting(s, k + 1, j)
    ensures SortedPrefix(BubbleLeft(s, k), j + 1)
    decreases k + 1
  {
    if k < 0 || s[k].priority <= s[k + 1].priority {
      InsertingDone(s, k + 1, j);
    } else {
      SwapInserting(s, k, j);
      BubbleLeftSorts(SwapWithNext(s, k), k - 1, j);
    }
  }

  /** The `do … while` of `insSortPriority`, with `ptr` at position `j` and
      `i` just before it: a record no smaller than its predecessor stays;
      otherwise it is bubbled left. The scan ends at the tail. */
  function SortFrom(s: seq<Process>, j: int): (r: seq<Process>)
    requires 1 <= j <= |s|
    ensures |r| == |s|
    ensures multiset(r) == multiset(s)
    ensures forall v :: Filter(r, PriorityIs(v)) == Filter(s, PriorityIs(v))
    decreases |s| - j
  {
    if j == |s| then s
    else if s[j].priority >= s[j - 1].priority then SortFrom(s, j + 1)
    else SortFrom(BubbleLeft(s, j - 1), j + 1)
  }

  lemma {:induction false} SortFromSorts(s: seq<Process>, j: int)
    requires 1 <= j <= |s|
    requires SortedPrefix(s, j)
    ensures SortedPrefix(SortFrom(s, j), |s|)
    decreases |s| - j
  {
    if j < |s| {
      if s[j].priority >= s[j - 1].priority {
        assert SortedPrefix(s, j + 1);
        SortFromSorts(s, j + 1);
      } else {
        assert Inserting(s, j, j);
        BubbleLeftSorts(s, j - 1, j);
        SortFromSorts(BubbleLeft(s, j - 1), j + 1);
      }
    }
  }

  /** `insSortPriority`: a permutation of the queue in non-decreasing priority
      order that is stable (records of equal priority keep their relative
      order, since only a strict `>` causes a swap); a one-record queue is
      returned as it is. The source is only ever called on a non-empty
      queue; an empty one is returned unchanged here. */
  function InsSortPriority(s: seq<Process>): (r: seq<Process>)
    ensures Sorted(r)
    ensures multiset(r) == multiset(s)
    ensures forall v :: Filter(r, PriorityIs(v)) == Filter(s, PriorityIs(v))
    ensures |s| <= 1 ==> r == s
  {
    if |s| <= 1 then s
    else
      SortFromSorts(s, 1);
      SortedPairwise(SortFrom(s, 1));
      SortFrom(s, 1)
  }

  lemma {:induction false} SortFromKeepsSorted(s: seq<Process>, j: int)
    requires 1 <= j <= |s|
    requires SortedPrefix(s, |s|)
    ensures SortFrom(s, j) == s
    decreases |s| - j
  {
    if j < |s| {
      SortFromKeepsSorted(s, j + 1);
    }
  }

  /** Sorting an already sorted queue changes nothing; so re-sorting the
      ready queue on every tick never disturbs an order already made. */
  lemma SortIdempotent(s: seq<Process>)
    requires Sorted(s)
    ensures InsSortPriority(s) == s
  {
    if |s| > 1 {
      SortedPairwise(s);
      SortFromKeepsSorted(s, 1);
    }
  }

  /** The head of the sorted queue has the lowest priority value present and
      is, among the records of that value, the one that was queued first. */
  lemma SortHeadIsEarliestMinimum(s: seq<Process>)
    requires |s| > 0
    ensures var h := InsSortPriority(s)[0];
      && (forall i :: 0 <= i < |s| ==> h.priority <= s[i].priority)
      && |Filter(s, PriorityIs(h.priority))| > 0
      && Filter(s, PriorityIs(h.priority))[0] == h
  {
    var r := InsSortPriority(s);
    var h := r[0];
    SortedPairwise(r);
    forall i | 0 <= i < |s|
      ensures h.priority <= s[i].priority
    {
      assert s[i] in multiset(r);
      var k :| 0 <= k < |r| && r[k] == s[i];
      assert k == 0 || h.priority <= r[k].priority;
    }
    assert Filter(r, PriorityIs(h.priority)) == [h] + Filter(r[1..], PriorityIs(h.priority));
  }

  /** The head of a sorted queue has a priority value no greater than any
      record in it. */
  lemma SortedHeadIsMin(s: seq<Process>, x: Process)
    requires Sorted(s) && x in multiset(s)
    ensures |s| > 0 && s[0].priority <= x.priority
  {
    SortedPairwise(s);
    var i :| 0 <= i < |s| && s[i] == x;
    assert i == 0 || s[0].priority <= s[i].priority;
  }

  /** The records of the head's priority value start with the head. */
  lemma ClassStartsWithHead(s: seq<Process>)
    requires |s| > 0
    ensures var c := Filter(s, PriorityIs(s[0].priority)); |c| > 0 && c[0] == s[0]
  {
    assert Filter(s, PriorityIs(s[0].priority)) == [s[0]] + Filter(s[1..], PriorityIs(s[0].priority));
  }

  /** Two sorted queues with the same records start with the same priority value. */
  lemma HeadPrioritiesAgree(a: seq<Process>, b: seq<Process>)
    requires Sorted(a) && Sorted(b) && |a| > 0
    requires multiset(a) == multiset(b)
    ensures |b| > 0 && a[0].priority == b[0].priority
  {
    assert a[0] in multiset(a);
    SortedHeadIsMin(b, a[0]);
    assert b[0] in multiset(b);
    SortedHeadIsMin(a, b[0]);
  }

  /** Two sorted queues with the same records, in the same order within every
      priority value, start with the same record. */
  lemma SortedHeadsAgree(a: seq<Process>, b: seq<Process>)
    requires Sorted(a) && Sorted(b) && |a| > 0
    requires multiset(a) == multiset(b)
    requires forall v :: Filter(a, PriorityIs(v)) == Filter(b, PriorityIs(v))
    ensures |b| > 0 && a[0] == b[0]
  {
    HeadPrioritiesAgree(a, b);
    ClassStartsWithHead(a);
    ClassStartsWithHead(b);
    assert Filter(a, PriorityIs(a[0].priority)) == Filter(b, PriorityIs(a[0].priority));
  }

  /** Dropping the same head from two queues keeps their priority classes equal. */
  lemma TailsKeepClasses(a: seq<Process>, b: seq<Process>)
    requires |a| > 0 && |b| > 0 && a[0] == b[0]
    requires forall v :: Filter(a, PriorityIs(v)) == Filter(b, PriorityIs(v))
    ensures forall v :: Filter(a[1..], PriorityIs(v)) == Filter(b[1..], PriorityIs(v))
  {
    var x := a[0];
    forall v
      ensures Filter(a[1..], PriorityIs(v)) == Filter(b[1..], PriorityIs(v))
    {
      var head := if x.priority == v then [x] else [];
      assert Filter(a, PriorityIs(v)) == head + Filter(a[1..], PriorityIs(v));
      assert Filter(b, PriorityIs(v)) == head + Filter(b[1..], PriorityIs(v));
      assert Filter(a[1..], PriorityIs(v)) == Filter(a, PriorityIs(v))[|head|..];
      assert Filter(b[1..], PriorityIs(v)) == Filter(b, PriorityIs(v))[|head|..];
    }
  }

  /** Removing one shared head from two queues with the same records leaves
      tails with the same records. */
  lemma TailsKeepRecords(a: seq<Process>, b: seq<Process>)
    requires |a| > 0 && |b| > 0 && a[0] == b[0]
    requires multiset(a) == multiset(b)
    ensures multiset(a[1..]) == multiset(b[1..])
  {
    RemoveRecord(a, a[0]);
    RemoveRecord(b, b[0]);
  }

  lemma SameHeadSameTail(a: seq<Process>, b: seq<Process>)
    requires |a| > 0 && |b| > 0 && a[0] == b[0] && a[1..] == b[1..]
    ensures a == b
  {
    assert a == [a[0]] + a[1..] && b == [b[0]] + b[1..];
  }

  /** A stable sort by priority has one outcome: two sorted queues holding the
      same records, in the same order within every priority value, are equal. */
  lemma {:induction false} SortedUnique(a: seq<Process>, b: seq<Process>)
    requires Sorted(a) && Sorted(b)
    requires multiset(a) == multiset(b)
    requires forall v :: Filter(a, PriorityIs(v)) == Filter(b, PriorityIs(v))
    ensures a == b
    decreases |a|
  {
    if |a| == 0 {
      assert |multiset(b)| == 0;
    } else {
      SortedHeadsAgree(a, b);
      TailsKeepClasses(a, b);
      TailsKeepRecords(a, b);
      SortedUnique(a[1..], b[1..]);
      SameHeadSameTail(a, b);
    }
  }

  /** Appending records to a sorted queue and sorting again gives what one
      sort of everything in queue order gives: the per-tick re-sorts of the
      ready queue add up to a single sort. */
  lemma ResortAppended(x: seq<Process>, y: seq<Process>)
    ensures InsSortPriority(InsSortPriority(x) + y) == InsSortPriority(x + y)
  {
    var sx := InsSortPriority(x);
    var a := InsSortPriority(sx + y);
    var b := InsSortPriority(x + y);
    forall v
      ensures Filter(a, PriorityIs(v)) == Filter(b, PriorityIs(v))
    {
      FilterConcat(sx, y, PriorityIs(v));
      FilterConcat(x, y, PriorityIs(v));
    }
    SortedUnique(a, b);
  }
}

=== FILE: queue.dfy ===
/** The doubly linked `struct List` of sched.c, seen through its observable
    behaviour: an ordered sequence, head first and tail last. The `prev`/`next`
    links and the running `count` are not modelled; `count` is the length. */
module Queue {

  datatype Option<T> = None | Some(value: T)

  /** What `dequeue` hands back from a non-empty list: the old head and the
      list that remains behind it. */
  datatype Popped<T> = Popped(head: T, rest: seq<T>)

  /** `enqueue`: link the node in at the tail; the count grows by one. */
  function Enqueue<T>(q: seq<T>, x: T): (r: seq<T>)
    ensures |r| == |q| + 1
    ensures r[..|q|] == q && r[|q|] == x
  {
    q + [x]
  }

  /** `dequeue`: unlink the head. On an empty list `head == tail == NULL`, so
      the NULL head is what comes back. */
  function Dequeue<T>(q: seq<T>): (r: Option<Popped<T>>)
    ensures r.None? <==> |q| == 0
    ensures r.Some? ==> [r.value.head] + r.value.rest == q
  {
    if |q| == 0 then None else Some(Popped(q[0], q[1..]))
  }

  /** Enqueue every element of `xs`, in order, at the tail of `q`. */
  function EnqueueAll<T>(q: seq<T>, xs: seq<T>): seq<T>
    decreases |xs|
  {
    if |xs| == 0 then q else EnqueueAll(Enqueue(q, xs[0]), xs[1..])
  }

  /** Dequeue until the list is empty, collecting the heads in order. */
  function Drain<T>(q: seq<T>): seq<T>
    decreases |q|
  {
    match Dequeue(q)
    case None => []
    case Some(p) => [p.head] + Drain(p.rest)
  }

  /** FIFO in one step: an element enqueued behind `q` comes out only after
      the current head, and an empty list gives back the element itself. */
  lemma DequeueAfterEnqueue<T>(q: seq<T>, x: T)
    ensures Dequeue(Enqueue(q, x)) ==
      if |q| == 0 then Some(Popped(x, [])) else Some(Popped(q[0], Enqueue(q[1..], x)))
  {
    if |q| > 0 {
      assert Enqueue(q, x)[1..] == Enqueue(q[1..], x);
    }
  }

  lemma {:induction false} EnqueueAllAppends<T>(q: seq<T>, xs: seq<T>)
    ensures EnqueueAll(q, xs) == q + xs
    decreases |xs|
  {
    if |xs| > 0 {
      EnqueueAllAppends(Enqueue(q, xs[0]), xs[1..]);
      assert Enqueue(q, xs[0]) + xs[1..] == q + xs;
    }
  }

  lemma {:induction false} DrainIsIdentity<T>(q: seq<T>)
    ensures Drain(q) == q
    decreases |q|
  {
    if |q| > 0 {
      DrainIsIdentity(q[1..]);
    }
  }

  /** FIFO over a whole run: enqueueing `xs` on an empty list and then
      dequeueing until empty yields `xs` in the same order. */
  lemma {:induction false} FirstInFirstOut<T>(xs: seq<T>)
    ensures Drain(EnqueueAll([], xs)) == xs
  {
    EnqueueAllAppends([], xs);
    assert [] + xs == xs;
    DrainIsIdentity(xs);
  }

  /** Concatenation regroups freely. */
  lemma AppendAssoc<T>(a: seq<T>, b: seq<T>, c: seq<T>)
    ensures a + (b + c) == (a + b) + c
  {
  }

  /** A prefix of a prefix is a prefix. */
  lemma PrefixTrans<T>(a: seq<T>, b: seq<T>, c: seq<T>)
    requires |c| <= |b| <= |a| && a[..|b|] == b && b[..|c|] == c
    ensures a[..|c|] == c
  {
    assert a[..|c|] == a[..|b|][..|c|];
  }
}

=== FILE: records.dfy ===
/** The process record of sched.c (`struct ProcessNode` without its links)
    and the facts about records that every queue operation relies on. */
module Records {

  /** The four integers one input line carries: `pid arrival burst priority`.
      These are the fields no scheduling step ever changes. */
  datatype Key = Key(pid: int, arrival: int, burst: int, priority: int)

  /** The seven data fields of a node; `swapWithNext` exchanges exactly these. */
  datatype Process = Process(pid: int, arrival: int, burst: int, finish: int,
                             waiting: int, leftover: int, priority: int)

  function KeyOf(p: Process): Key {
    Key(p.pid, p.arrival, p.burst, p.priority)
  }

  /** `init_process`: the four given fields; finish, waiting and leftover 0. */
  function InitProcess(pid: int, arrival: int, burst: int, priority: int): (p: Process)
    ensures KeyOf(p) == Key(pid, arrival, burst, priority)
    ensures p.finish == 0 && p.waiting == 0 && p.leftover == 0
  {
    Process(pid, arrival, burst, 0, 0, 0, priority)
  }

  /** A record as the import loop leaves it: nothing done yet, all work owed. */
  predicate Fresh(p: Process) {
    p.finish == 0 && p.waiting == 0 && p.leftover == p.burst
  }

  /** The import loop of `main`: each row goes through `init_process`, gets
      `leftover := burst`, and is enqueued in reading order. Reading the file
      itself is not modelled; the rows are given. */
  function Import(rows: seq<Key>): (s: seq<Process>)
    ensures |s| == |rows|
    ensures forall i :: 0 <= i < |s| ==> KeyOf(s[i]) == rows[i] && Fresh(s[i])
  {
    if |rows| == 0 then []
    else
      var k := rows[0];
      var p := InitProcess(k.pid, k.arrival, k.burst, k.priority);
      [p.(leftover := p.burst)] + Import(rows[1..])
  }

  /** The unchanging part of every record of a queue, in queue order. */
  function Keys(s: seq<Process>): (ks: seq<Key>)
    ensures |ks| == |s|
  {
    if |s| == 0 then [] else [KeyOf(s[0])] + Keys(s[1..])
  }

  /** Import loses and invents nothing: the rows come back in order. */
  lemma {:induction false} ImportKeepsRows(rows: seq<Key>)
    ensures Keys(Import(rows)) == rows
    decreases |rows|
  {
    if |rows| > 0 {
      ImportKeepsRows(rows[1..]);
    }
  }

  lemma {:induction false} KeysConcat(a: seq<Process>, b: seq<Process>)
    ensures Keys(a + b) == Keys(a) + Keys(b)
    decreases |a|
  {
    if |a| == 0 {
      assert a + b == b;
    } else {
      assert (a + b)[1..] == a[1..] + b;
      KeysConcat(a[1..], b);
    }
  }

  /** The queue without the first occurrence of `x`. */
  function Remove(s: seq<Process>, x: Process): (r: seq<Process>)
    decreases |s|
  {
    if |s| == 0 then []
    else if s[0] == x then s[1..]
    else [s[0]] + Remove(s[1..], x)
  }

  lemma {:induction false} RemoveRecord(s: seq<Process>, x: Process)
    requires x in s
    ensures multiset(Remove(s, x)) == multiset(s) - multiset{x}
    decreases |s|
  {
    assert s == [s[0]] + s[1..];
    if s[0] != x {
      RemoveRecord(s[1..], x);
    }
  }

  lemma {:induction false} RemoveKey(s: seq<Process>, x: Process)
    requires x in s
    ensures multiset(Keys(s)) == multiset(Keys(Remove(s, x))) + multiset{KeyOf(x)}
    decreases |s|
  {
    if s[0] != x {
      var rest := Remove(s[1..], x);
      RemoveKey(s[1..], x);
      assert ([s[0]] + rest)[1..] == rest;
      assert Keys([s[0]] + rest) == [KeyOf(s[0])] + Keys(rest);
    }
  }

  /** Reordering records reorders their keys the same way. */
  lemma {:induction false} KeysPermutation(a: seq<Process>, b: seq<Process>)
    requires multiset(a) == multiset(b)
    ensures multiset(Keys(a)) == multiset(Keys(b))
    decreases |a|
  {
    if |a| == 0 {
      assert |multiset(b)| == 0;
    } else {
      var x := a[0];
      assert x in multiset(b);
      assert a == [x] + a[1..];
      assert multiset(a[1..]) == multiset(a) - multiset{x};
      RemoveRecord(b, x);
      KeysPermutation(a[1..], Remove(b, x));
      RemoveKey(b, x);
    }
  }

  /** The bookkeeping both simulators write on completion: waiting time is
      the turnaround time minus the burst. */
  predicate Completed(p: Process) {
    p.waiting == p.finish - p.arrival - p.burst
  }

  /** A completed record finished no earlier than it could have: after its
      arrival it ran its whole burst. For a `Completed` record this is a
      waiting time of 0 or more. */
  predicate Feasible(p: Process) {
    p.finish >= p.arrival + p.burst
  }
}

=== FILE: round_robin.dfy ===
/** `rr`: round-robin scheduling with a fixed quantum. The current process
    runs for at most one quantum, checking for arrivals on the way; it is
    then completed, or goes back to the end of the ready queue, and the head
    of the ready queue runs next. */
module RoundRobin {

  import opened Records
  import opened Queue
  import opened Filters
  import opened Arrival
  import opened Simulation

  function Min(a: int, b: int): int {
    if a <= b then a else b
  }

  /** A record after `n` ticks of running: only its leftover changes. */
  function Charged(p: Process, n: int): Process {
    p.(leftover := p.leftover - n)
  }

  /** `arrivalChecker` at the clock value now (lines 385, 396 and 402). */
  function CheckArrivals(st: Sim): (r: Sim)
    ensures r.clock == st.clock && r.current == st.current && r.completed == st.completed
    ensures r.ready == st.ready + Filter(st.job, Window(st.clock, st.clock))
    ensures r.job == Filter(st.job, Outside(st.clock, st.clock))
  {
    var a := ArrivalChecker(st.ready, st.job, st.clock);
    st.(ready := a.ready, job := a.job)
  }

  /** Lines 382-387: one iteration of the quantum loop. The clock advances,
      the current process owes one tick less, and the arrivals at the new
      clock value are admitted when `check` holds. */
  function Tock(st: Sim, check: bool): (r: Sim)
    requires st.current.Some?
    ensures r.current.Some? && r.clock == st.clock + 1 && r.completed == st.completed
    ensures r.current.value == Charged(st.current.value, 1)
  {
    var p := st.current.value;
    var ticked := st.(clock := st.clock + 1, current := Some(Charged(p, 1)));
    if check then CheckArrivals(ticked) else ticked
  }

  /** The `for` loop of lines 381-390 from iteration `i` on: the arrival
      check is skipped in the last iteration (`i == q - 1`), and the loop
      breaks as soon as the leftover reaches 0. Every tick the clock gains
      the current process pays for with its leftover. */
  function Quantum(st: Sim, q: int, i: nat): (r: Sim)
    requires st.current.Some?
    ensures r.current.Some? && r.completed == st.completed
    // every tick is paid for out of the leftover, and no other field changes
    ensures r.clock >= st.clock
    ensures r.current.value == Charged(st.current.value, r.clock - st.clock)
    // from iteration `i` on, a process owing work runs `min(q - i, leftover)` ticks
    ensures i <= q && st.current.value.leftover > 0 ==>
      r.clock == st.clock + Min(q - i, st.current.value.leftover)
    decreases q - i
  {
    if i >= q then st
    else
      var s := Tock(st, i < q - 1);
      if s.current.value.leftover == 0 then s else Quantum(s, q, i + 1)
  }

  /** The last clock value the quantum loop has checked for arrivals after
      `i` uninterrupted iterations from `clock`: every one passed over, but
      never `clock + q`, the last tick of a full quantum. */
  function LastCheck(clock: int, q: int, i: int): int {
    if i < q then clock + i else clock + q - 1
  }

  /** `i` uninterrupted iterations of the quantum loop in closed form: the
      clock and the leftover move by `i`, and the arrivals have been checked
      at every clock value up to `LastCheck`. */
  function Ticked(st: Sim, q: int, i: int): Sim
    requires st.current.Some?
  {
    var c := st.clock;
    st.(clock := c + i, current := Some(Charged(st.current.value, i)),
        ready := st.ready + Arrivals(st.job, c + 1, LastCheck(c, q, i)),
        job := Filter(st.job, Outside(c + 1, LastCheck(c, q, i))))
  }

  lemma CheckArrivalsConserves(st: Sim)
    ensures var r := CheckArrivals(st); multiset(r.ready + r.job) == multiset(st.ready + st.job)
  {
    ArrivalCheckerConserves(st.ready, st.job, st.clock);
  }

  lemma TockConserves(st: Sim, check: bool)
    requires st.current.Some?
    ensures var r := Tock(st, check); multiset(r.ready + r.job) == multiset(st.ready + st.job)
  {
    var ticked := st.(clock := st.clock + 1, current := Some(Charged(st.current.value, 1)));
    if check {
      assert Tock(st, check) == CheckArrivals(ticked);
      CheckArrivalsConserves(ticked);
    } else {
      assert Tock(st, check) == ticked;
    }
  }

  /** The quantum loop only moves records from the job queue to the ready
      queue. */
  lemma {:induction false} QuantumConserves(st: Sim, q: int, i: nat)
    requires st.current.Some?
    ensures var r := Quantum(st, q, i); multiset(r.ready + r.job) == multiset(st.ready + st.job)
    decreases q - i
  {
    if i < q {
      var s := Tock(st, i < q - 1);
      TockConserves(st, i < q - 1);
      if s.current.value.leftover != 0 {
        QuantumConserves(s, q, i + 1);
      }
    }
  }

  /** The closed form only moves records from the job queue to the ready
      queue. */
  lemma TickedConserves(st: Sim, q: int, i: int)
    requires st.current.Some?
    ensures var run := Ticked(st, q, i); multiset(run.ready + run.job) == multiset(st.ready + st.job)
  {
    var c := st.clock;
    var last := LastCheck(c, q, i);
    var run := Ticked(st, q, i);
    var arrived := Arrivals(st.job, c + 1, last);
    var pending := Filter(st.job, Outside(c + 1, last));
    assert run.ready == st.ready + arrived && run.job == pending;
    ArrivalsConserve(st.job, c + 1, last);
    assert multiset(arrived + pending) == multiset(st.job);
    AppendAssoc(st.ready, arrived, pending);
  }

  /** `currentProcess = dequeue(ReadyQueue)` (lines 397 and 403). */
  function Dispatch(st: Sim): (r: Sim)
    requires st.current.None?
    ensures r.clock == st.clock && r.job == st.job && r.completed == st.completed
    ensures Running(r) + r.ready == st.ready
    ensures r.current.None? <==> st.ready == []
  {
    match Dequeue(st.ready)
    case None => st
    case Some(p) => st.(current := Some(p.head), ready := p.rest)
  }

  /** Every record still to be scheduled owes at least one tick. With a
      positive quantum, a record owing 0 or less makes `leftover--` step
      past 0, and the source loops for ever. */
  predicate Runnable(s: seq<Process>)
    decreases |s|
  {
    |s| == 0 || (s[0].leftover > 0 && Runnable(s[1..]))
  }

  lemma {:induction false} RunnableMember(s: seq<Process>, x: Process)
    requires Runnable(s) && x in s
    ensures x.leftover > 0
    decreases |s|
  {
    if s[0] != x {
      assert x in s[1..];
      RunnableMember(s[1..], x);
    }
  }

  lemma {:induction false} RunnableRemove(s: seq<Process>, x: Process)
    requires Runnable(s)
    ensures Runnable(Remove(s, x))
    decreases |s|
  {
    if |s| > 0 && s[0] != x {
      var rest := Remove(s[1..], x);
      RunnableRemove(s[1..], x);
      assert ([s[0]] + rest)[0] == s[0] && ([s[0]] + rest)[1..] == rest;
    }
  }

  /** Whether every record owes work depends on the records only. */
  lemma {:induction false} RunnablePermutation(a: seq<Process>, b: seq<Process>)
    requires Runnable(b) && multiset(a) == multiset(b)
    ensures Runnable(a)
    decreases |a|
  {
    if |a| > 0 {
      var x := a[0];
      assert x in multiset(b);
      RunnableMember(b, x);
      assert a == [x] + a[1..];
      assert multiset(a[1..]) == multiset(a) - multiset{x};
      RemoveRecord(b, x);
      RunnableRemove(b, x);
      RunnablePermutation(a[1..], Remove(b, x));
    }
  }

  lemma {:induction false} RunnableConcat(a: seq<Process>, b: seq<Process>)
    ensures Runnable(a + b) <==> Runnable(a) && Runnable(b)
    decreases |a|
  {
    if |a| > 0 {
      assert (a + b)[0] == a[0] && (a + b)[1..] == a[1..] + b;
      RunnableConcat(a[1..], b);
    } else {
      assert a + b == b;
    }
  }

  function Owed(p: Process): nat {
    if p.leftover > 0 then p.leftover else 0
  }

  /** Ticks still owed by the records of `s`. */
  function Work(s: seq<Process>): nat {
    if |s| == 0 then 0 else Owed(s[0]) + Work(s[1..])
  }

  lemma {:induction false} WorkConcat(a: seq<Process>, b: seq<Process>)
    ensures Work(a + b) == Work(a) + Work(b)
    decreases |a|
  {
    if |a| > 0 {
      assert (a + b)[0] == a[0] && (a + b)[1..] == a[1..] + b;
      WorkConcat(a[1..], b);
    } else {
      assert a + b == b;
    }
  }

  lemma {:induction false} WorkRemove(s: seq<Process>, x: Process)
    requires x in s
    ensures Work(s) == Work(Remove(s, x)) + Owed(x)
    decreases |s|
  {
    if s[0] != x {
      var rest := Remove(s[1..], x);
      WorkRemove(s[1..], x);
      assert ([s[0]] + rest)[1..] == rest;
    }
  }

  /** The owed work depends on the records only, not on their order. */
  lemma {:induction false} WorkPermutation(a: seq<Process>, b: seq<Process>)
    requires multiset(a) == multiset(b)
    ensures Work(a) == Work(b)
    decreases |a|
  {
    if |a| > 0 {
      var x := a[0];
      assert x in multiset(b);
      assert a == [x] + a[1..];
      assert multiset(a[1..]) == multiset(a) - multiset{x};
      RemoveRecord(b, x);
      WorkPermutation(a[1..], Remove(b, x));
      WorkRemove(b, x);
    }
  }

  /** Lines 393-395: the current process is completed at the clock now and
      appended to the completed queue. */
  function Retire(run: Sim): (r: Sim)
    requires run.current.Some?
    ensures r.clock == run.clock && r.current.None? && r.ready == run.ready && r.job == run.job
    ensures r.completed == run.completed + [Complete(run.current.value, run.clock)]
  {
    run.(current := None, completed := Enqueue(run.completed, Complete(run.current.value, run.clock)))
  }

  /** Line 401: the unfinished current process goes to the end of the ready
      queue. */
  function Requeue(run: Sim): (r: Sim)
    requires run.current.Some?
    ensures r.clock == run.clock && r.current.None? && r.job == run.job && r.completed == run.completed
    ensures r.ready == run.ready + [run.current.value]
  {
    run.(current := None, ready := Enqueue(run.ready, run.current.value))
  }

  /** Lines 392-397: the process is completed at the clock now, the arrival
      check runs, and the head of the ready queue is dispatched. */
  function FinishTurn(run: Sim): (r: Sim)
    requires run.current.Some?
    ensures r.clock == run.clock
    ensures |r.completed| == |run.completed| + 1 && r.completed[..|run.completed|] == run.completed
    ensures r.completed[|run.completed|] == Complete(run.current.value, run.clock)
    ensures r.current.None? ==> r.ready == []
  {
    Dispatch(CheckArrivals(Retire(run)))
  }

  /** Lines 400-403: the unfinished process goes to the end of the ready
      queue BEFORE the arrival check at the clock now, so it runs again ahead
      of the records arriving at that clock value. */
  function RequeueTurn(run: Sim): (r: Sim)
    requires run.current.Some?
    ensures r.clock == run.clock && r.completed == run.completed
    ensures r.current.Some?
  {
    Dispatch(CheckArrivals(Requeue(run)))
  }

  lemma FinishTurnLive(run: Sim)
    requires run.current.Some?
    ensures multiset(Live(FinishTurn(run))) == multiset(run.ready + run.job)
  {
    CheckArrivalsConserves(Retire(run));
  }

  lemma RequeueTurnLive(run: Sim)
    requires run.current.Some?
    ensures multiset(Live(RequeueTurn(run))) == multiset(run.ready + run.job) + multiset{run.current.value}
  {
    var p := run.current.value;
    CheckArrivalsConserves(Requeue(run));
    assert multiset(run.ready + [p] + run.job) == multiset(run.ready + run.job) + multiset{p};
  }

  /** One turn of the outer `while` of `rr` (lines 380-403): the quantum
      loop, then completion or requeue, then the next dispatch. */
  function RrStep(st: Sim, q: int): (r: Sim)
    requires q > 0 && st.current.Some? && st.current.value.leftover > 0
    // the turn lasts one quantum, or less when the process needs less
    ensures r.clock == st.clock + Min(q, st.current.value.leftover)
    // a process that needs at most a quantum completes now, all its work done
    ensures var cur := st.current.value; cur.leftover <= q ==>
      && |r.completed| == |st.completed| + 1 && r.completed[..|st.completed|] == st.completed
      && var f := r.completed[|st.completed|];
         KeyOf(f) == KeyOf(cur) && f.leftover == 0 && f.finish == r.clock && Completed(f)
    // any other goes back to the queues, see RrStepLive
    ensures st.current.value.leftover > q ==> r.completed == st.completed
    // the run ends exactly when nothing is ready
    ensures r.current.None? ==> r.ready == []
  {
    var run := Ticked(st, q, Min(q, st.current.value.leftover));
    if run.current.value.leftover == 0 then FinishTurn(run) else RequeueTurn(run)
  }

  /** The records a turn leaves to schedule: those of the queues, plus the
      current one owing a quantum less when it did not complete. */
  lemma RrStepLive(st: Sim, q: int)
    requires q > 0 && st.current.Some? && st.current.value.leftover > 0
    ensures st.current.value.leftover <= q ==>
      multiset(Live(RrStep(st, q))) == multiset(st.ready + st.job)
    ensures st.current.value.leftover > q ==>
      multiset(Live(RrStep(st, q))) == multiset(st.ready + st.job) + multiset{Charged(st.current.value, q)}
  {
    var cur := st.current.value;
    var run := Ticked(st, q, Min(q, cur.leftover));
    TickedConserves(st, q, Min(q, cur.leftover));
    if cur.leftover > q {
      assert run.current.value == Charged(cur, q);
      RequeueTurnLive(run);
    } else {
      FinishTurnLive(run);
    }
  }

  lemma LiveSplit(st: Sim)
    requires st.current.Some?
    ensures Live(st) == [st.current.value] + (st.ready + st.job)
  {
    AppendAssoc([st.current.value], st.ready, st.job);
  }

  /** Every record a turn leaves to schedule still owes work. */
  lemma RrStepRunnable(st: Sim, q: int)
    requires q > 0 && st.current.Some? && Runnable(Live(st))
    ensures Runnable(Live(RrStep(st, q)))
  {
    var cur := st.current.value;
    var rest := st.ready + st.job;
    LiveSplit(st);
    RunnableConcat([cur], rest);
    RrStepLive(st, q);
    if cur.leftover <= q {
      RunnablePermutation(Live(RrStep(st, q)), rest);
    } else {
      var p := Charged(cur, q);
      assert multiset(rest + [p]) == multiset(rest) + multiset{p};
      RunnableConcat(rest, [p]);
      RunnablePermutation(Live(RrStep(st, q)), rest + [p]);
    }
  }

  /** The owed work of a running simulator: the current record's, then the
      queues'. */
  lemma WorkSplit(st: Sim)
    requires st.current.Some?
    ensures Work(Live(st)) == Owed(st.current.value) + Work(st.ready + st.job)
  {
    LiveSplit(st);
    WorkConcat([st.current.value], st.ready + st.job);
    assert Work([st.current.value]) == Owed(st.current.value);
  }

  lemma RrStepPaysFinish(st: Sim, q: int)
    requires q > 0 && st.current.Some? && 0 < st.current.value.leftover <= q
    ensures Work(Live(RrStep(st, q))) == Work(Live(st)) - st.current.value.leftover
  {
    WorkSplit(st);
    RrStepLive(st, q);
    WorkPermutation(Live(RrStep(st, q)), st.ready + st.job);
  }

  lemma RrStepPaysRequeue(st: Sim, q: int)
    requires q > 0 && st.current.Some? && st.current.value.leftover > q
    ensures Work(Live(RrStep(st, q))) == Work(Live(st)) - q
  {
    var rest := st.ready + st.job;
    var p := Charged(st.current.value, q);
    WorkSplit(st);
    RrStepLive(st, q);
    assert multiset(rest + [p]) == multiset(rest) + multiset{p};
    WorkPermutation(Live(RrStep(st, q)), rest + [p]);
    WorkConcat(rest, [p]);
    assert Work([p]) == Owed(p);
  }

  /** A turn pays the ticks it ran out of the work owed, and leaves every
      record still to schedule owing work. */
  lemma RrStepPays(st: Sim, q: int)
    requires q > 0 && st.current.Some? && Runnable(Live(st))
    ensures Runnable(Live(RrStep(st, q)))
    ensures Work(Live(RrStep(st, q))) == Work(Live(st)) - Min(q, st.current.value.leftover)
    ensures Work(Live(RrStep(st, q))) < Work(Live(st))
  {
    LiveSplit(st);
    RunnableConcat([st.current.value], st.ready + st.job);
    RrStepRunnable(st, q);
    if st.current.value.leftover <= q {
      RrStepPaysFinish(st, q);
    } else {
      RrStepPaysRequeue(st, q);
    }
  }

  /** The outer `while (currentProcess != NULL)` of `rr`: turns until the
      ready queue is empty at a dispatch. Every turn pays at least one tick
      of the work owed, so the work bounds the run. */
  function RrRun(st: Sim, q: int): (r: Sim)
    requires q > 0 && Runnable(Live(st))
    ensures r.current.None?
    ensures st.current.Some? ==> r.ready == []
    ensures st.current.None? ==> r == st
    ensures r.clock >= st.clock
    ensures |r.completed| >= |st.completed| && r.completed[..|st.completed|] == st.completed
    decreases Work(Live(st))
  {
    if st.current.None? then st
    else
      var next := RrStep(st, q);
      RrStepPays(st, q);
      var r := RrRun(next, q);
      PrefixTrans(r.completed, next.completed, st.completed);
      r
  }

  /** `rr` as a whole. */
  function Rr(input: seq<Process>, q: int): (r: Sim)
    requires q > 0 && Runnable(input)
    ensures r.current.None? && r.ready == []
    ensures |input| == 0 ==> r.completed == [] && r.job == []
  {
    RrRun(Start(input), q)
  }
}

=== FILE: rr_properties.dfy ===
/** Properties of the `rr` model: what the quantum loop does tick by tick,
    where a turn puts the records it moves, and what a whole run keeps. */
module RrProperties {

  import opened Records
  import opened Queue
  import opened Filters
  import opened Arrival
  import opened Simulation
  import opened RoundRobin

  lemma TockTickedChecked(st: Sim, q: int, i: int)
    requires st.current.Some? && 0 <= i < q - 1
    ensures Tock(Ticked(st, q, i), true).ready == Ticked(st, q, i + 1).ready
  {
    var c := st.clock;
    var t := Ticked(st, q, i);
    assert LastCheck(c, q, i) == c + i && LastCheck(c, q, i + 1) == c + i + 1;
    var x := t.(clock := t.clock + 1, current := Some(Charged(t.current.value, 1)));
    assert Tock(t, true) == CheckArrivals(x);
    CheckExtends(x, st.ready, st.job, c + 1, c + i);
  }

  lemma TockTickedReady(st: Sim, q: int, i: int)
    requires st.current.Some? && 0 <= i < q
    ensures Tock(Ticked(st, q, i), i < q - 1).ready == Ticked(st, q, i + 1).ready
  {
    if i < q - 1 {
      TockTickedChecked(st, q, i);
    } else {
      assert LastCheck(st.clock, q, i) == LastCheck(st.clock, q, i + 1);
    }
  }

  lemma TockTickedJob(st: Sim, q: int, i: int)
    requires st.current.Some? && 0 <= i < q
    ensures Tock(Ticked(st, q, i), i < q - 1).job == Ticked(st, q, i + 1).job
  {
    var c := st.clock;
    if i < q - 1 {
      assert LastCheck(c, q, i) == c + i && LastCheck(c, q, i + 1) == c + i + 1;
      OutsideAdjacent(st.job, c + 1, c + i, c + i + 1);
    } else {
      assert LastCheck(c, q, i) == LastCheck(c, q, i + 1);
    }
  }

  /** One more iteration of the loop extends the closed form by one tick. */
  lemma TockTicked(st: Sim, q: int, i: int)
    requires st.current.Some? && 0 <= i < q
    ensures Tock(Ticked(st, q, i), i < q - 1) == Ticked(st, q, i + 1)
  {
    TockTickedReady(st, q, i);
    TockTickedJob(st, q, i);
  }

  /** No iteration yet: the closed form is the state itself. */
  lemma TickedZero(st: Sim, q: int)
    requires st.current.Some?
    ensures Ticked(st, q, 0) == st
  {
    var c := st.clock;
    var last := LastCheck(c, q, 0);
    FilterAllKept(st.job, Outside(c + 1, last));
    assert Arrivals(st.job, c + 1, last) == [];
    assert st.ready + [] == st.ready;
    assert Charged(st.current.value, 0) == st.current.value;
  }

  lemma {:induction false} QuantumFrom(st: Sim, q: int, i: nat)
    requires st.current.Some? && i <= q && i < st.current.value.leftover
    ensures Quantum(Ticked(st, q, i), q, i) == Ticked(st, q, Min(q, st.current.value.leftover))
    decreases q - i
  {
    if i < q {
      TockTicked(st, q, i);
      if i + 1 < st.current.value.leftover {
        QuantumFrom(st, q, i + 1);
      }
    }
  }

  /** The quantum loop, started with work owed, is the closed form over
      `min(q, leftover)` ticks. */
  lemma QuantumIsTicked(st: Sim, q: int)
    requires st.current.Some? && q > 0 && st.current.value.leftover > 0
    ensures Quantum(st, q, 0) == Ticked(st, q, Min(q, st.current.value.leftover))
  {
    TickedZero(st, q);
    QuantumFrom(st, q, 0);
  }

  /** A process owing less than a quantum runs its leftover out, and the
      arrivals are checked at every clock value it reaches. */
  lemma QuantumShort(st: Sim, q: int)
    requires st.current.Some? && 0 < st.current.value.leftover < q
    ensures var r := Quantum(st, q, 0); var c := st.clock; var n := st.current.value.leftover;
      && r.clock == c + n && r.current.value.leftover == 0
      && r.ready == st.ready + Arrivals(st.job, c + 1, c + n)
      && r.job == Filter(st.job, Outside(c + 1, c + n))
  {
    QuantumIsTicked(st, q);
  }

  /** A process owing a quantum or more runs exactly `q` ticks, and the
      arrivals are checked at every one of them except the last. */
  lemma QuantumFull(st: Sim, q: int)
    requires st.current.Some? && 0 < q <= st.current.value.leftover
    ensures var r := Quantum(st, q, 0); var c := st.clock;
      && r.clock == c + q && r.current.value.leftover == st.current.value.leftover - q
      && r.ready == st.ready + Arrivals(st.job, c + 1, c + q - 1)
      && r.job == Filter(st.job, Outside(c + 1, c + q - 1))
  {
    QuantumIsTicked(st, q);
  }

  /** An arrival check one clock value past the checks over `lo..hi`
      appends the records arriving then. */
  lemma CheckAppends(x: Sim, job: seq<Process>, lo: int, hi: int)
    requires lo <= hi + 1 && x.clock == hi + 1 && x.job == Filter(job, Outside(lo, hi))
    ensures CheckArrivals(x).ready == x.ready + Filter(job, Window(hi + 1, hi + 1))
    ensures CheckArrivals(x).job == Filter(job, Outside(lo, hi + 1))
  {
    WindowAfterOutside(job, lo, hi, hi + 1);
    OutsideAdjacent(job, lo, hi, hi + 1);
  }

  /** An arrival check one clock value past the checks over `lo..hi`
      extends them. */
  lemma CheckExtends(x: Sim, before: seq<Process>, job: seq<Process>, lo: int, hi: int)
    requires lo <= hi + 1 && x.clock == hi + 1
    requires x.ready == before + Arrivals(job, lo, hi) && x.job == Filter(job, Outside(lo, hi))
    ensures CheckArrivals(x).ready == before + Arrivals(job, lo, hi + 1)
    ensures CheckArrivals(x).job == Filter(job, Outside(lo, hi + 1))
  {
    CheckAppends(x, job, lo, hi);
    ArrivalsStep(job, lo, hi);
    AppendAssoc(before, Arrivals(job, lo, hi), Filter(job, Window(hi + 1, hi + 1)));
  }

  /** An arrival check at a clock value already checked changes nothing. */
  lemma CheckRepeats(x: Sim, job: seq<Process>, lo: int, hi: int)
    requires lo <= hi && x.clock == hi && x.job == Filter(job, Outside(lo, hi))
    ensures CheckArrivals(x).ready == x.ready && CheckArrivals(x).job == x.job
  {
    WindowWithin(job, lo, hi, hi);
    OutsideWithin(job, lo, hi, hi);
    assert x.ready + [] == x.ready;
  }

  /** A full quantum in closed form: the last tick is not checked. */
  lemma TickedFull(st: Sim, q: int)
    requires st.current.Some? && q > 0
    ensures var run := Ticked(st, q, q); var c := st.clock;
      && run.clock == c + q
      && run.ready == st.ready + Arrivals(st.job, c + 1, c + q - 1)
      && run.job == Filter(st.job, Outside(c + 1, c + q - 1))
  {
    assert LastCheck(st.clock, q, q) == st.clock + q - 1;
  }

  /** A shorter run in closed form: every tick is checked. */
  lemma TickedShort(st: Sim, q: int, n: int)
    requires st.current.Some? && 0 <= n < q
    ensures var run := Ticked(st, q, n); var c := st.clock;
      && run.clock == c + n
      && run.job == Filter(st.job, Outside(c + 1, c + n))
  {
    assert LastCheck(st.clock, q, n) == st.clock + n;
  }

  /** The requeue and the check after a full quantum, whose last tick was
      not checked yet. */
  lemma RequeueAfterFull(st: Sim, q: int)
    requires st.current.Some? && q > 0
    ensures var x := CheckArrivals(Requeue(Ticked(st, q, q))); var c := st.clock;
      && x.ready == st.ready + Arrivals(st.job, c + 1, c + q - 1)
                    + [Charged(st.current.value, q)] + Filter(st.job, Window(c + q, c + q))
      && x.job == Filter(st.job, Outside(c + 1, c + q))
  {
    var run := Ticked(st, q, q);
    TickedFull(st, q);
    var x := Requeue(run);
    assert x.job == Filter(st.job, Outside(st.clock + 1, st.clock + q - 1));
    assert x.ready == st.ready + Arrivals(st.job, st.clock + 1, st.clock + q - 1) + [Charged(st.current.value, q)];
    CheckAppends(x, st.job, st.clock + 1, st.clock + q - 1);
  }

  /** Completion at the last tick of a full quantum, not checked yet. */
  lemma FinishAfterFull(st: Sim, q: int)
    requires st.current.Some? && q > 0
    ensures var x := CheckArrivals(Retire(Ticked(st, q, q))); var c := st.clock;
      && x.ready == st.ready + Arrivals(st.job, c + 1, c + q)
      && x.job == Filter(st.job, Outside(c + 1, c + q))
  {
    var run := Ticked(st, q, q);
    TickedFull(st, q);
    var x := Retire(run);
    assert x.job == Filter(st.job, Outside(st.clock + 1, st.clock + q - 1));
    assert x.ready == st.ready + Arrivals(st.job, st.clock + 1, st.clock + q - 1);
    CheckExtends(x, st.ready, st.job, st.clock + 1, st.clock + q - 1);
  }

  /** Completion before the end of the quantum, at a clock value already
      checked. */
  lemma FinishAfterShort(st: Sim, q: int, n: int)
    requires st.current.Some? && 0 < n < q
    ensures var x := CheckArrivals(Retire(Ticked(st, q, n))); var c := st.clock;
      && x.ready == st.ready + Arrivals(st.job, c + 1, c + n)
      && x.job == Filter(st.job, Outside(c + 1, c + n))
  {
    var run := Ticked(st, q, n);
    TickedShort(st, q, n);
    var x := Retire(run);
    assert x.job == Filter(st.job, Outside(st.clock + 1, st.clock + n));
    CheckRepeats(x, st.job, st.clock + 1, st.clock + n);
  }

  lemma FinishShortOrder(st: Sim, q: int)
    requires q > 0 && st.current.Some? && 0 < st.current.value.leftover < q
    ensures var r := RrStep(st, q); var c := st.clock; var n := st.current.value.leftover;
      && Running(r) + r.ready == st.ready + Arrivals(st.job, c + 1, c + n)
      && r.job == Filter(st.job, Outside(c + 1, c + n))
  {
    var n := st.current.value.leftover;
    assert Min(q, n) == n;
    assert RrStep(st, q) == FinishTurn(Ticked(st, q, n));
    FinishAfterShort(st, q, n);
  }

  lemma FinishFullOrder(st: Sim, q: int)
    requires q > 0 && st.current.Some? && st.current.value.leftover == q
    ensures var r := RrStep(st, q); var c := st.clock;
      && Running(r) + r.ready == st.ready + Arrivals(st.job, c + 1, c + q)
      && r.job == Filter(st.job, Outside(c + 1, c + q))
  {
    assert Min(q, q) == q;
    assert RrStep(st, q) == FinishTurn(Ticked(st, q, q));
    FinishAfterFull(st, q);
  }

  /** A turn whose process completes: the records that arrived during it
      join the ready queue in arrival order, and the next process is the
      head of that queue. */
  lemma RrStepFinishOrder(st: Sim, q: int)
    requires q > 0 && st.current.Some? && 0 < st.current.value.leftover <= q
    ensures var r := RrStep(st, q); var c := st.clock; var n := st.current.value.leftover;
      && Running(r) + r.ready == st.ready + Arrivals(st.job, c + 1, c + n)
      && r.job == Filter(st.job, Outside(c + 1, c + n))
  {
    if st.current.value.leftover < q {
      FinishShortOrder(st, q);
    } else {
      FinishFullOrder(st, q);
    }
  }

  /** A turn whose process does not complete: it goes back to the ready
      queue after the records that arrived during its first `q - 1` ticks
      and BEFORE those arriving at the last tick. */
  lemma RrStepRequeueOrder(st: Sim, q: int)
    requires q > 0 && st.current.Some? && st.current.value.leftover > q
    ensures var r := RrStep(st, q); var c := st.clock;
      && Running(r) + r.ready == st.ready + Arrivals(st.job, c + 1, c + q - 1)
                                 + [Charged(st.current.value, q)] + Filter(st.job, Window(c + q, c + q))
      && r.job == Filter(st.job, Outside(c + 1, c + q))
  {
    assert Min(q, st.current.value.leftover) == q;
    assert RrStep(st, q) == RequeueTurn(Ticked(st, q, q));
    RequeueAfterFull(st, q);
  }

  lemma RrStepKeysFinish(st: Sim, q: int)
    requires q > 0 && st.current.Some? && 0 < st.current.value.leftover <= q
    ensures multiset(Keys(Everything(RrStep(st, q)))) == multiset(Keys(Everything(st)))
  {
    var r := RrStep(st, q);
    RrStepLive(st, q);
    var f := r.completed[|st.completed|];
    assert r.completed == st.completed + [f];
    KeysMoved(Live(r), st.ready, st.job, st.completed, st.current.value, f);
  }

  lemma RrStepKeysRequeue(st: Sim, q: int)
    requires q > 0 && st.current.Some? && st.current.value.leftover > q
    ensures multiset(Keys(Everything(RrStep(st, q)))) == multiset(Keys(Everything(st)))
  {
    var r := RrStep(st, q);
    var p := Charged(st.current.value, q);
    RrStepLive(st, q);
    assert multiset(st.ready + st.job + [p]) == multiset(st.ready + st.job) + multiset{p};
    KeysKept(Live(r), st.ready, st.job, st.completed, st.current.value, p);
  }

  /** A turn loses and invents no record: every key the simulator held, it
      still holds, as often. */
  lemma RrStepKeys(st: Sim, q: int)
    requires q > 0 && st.current.Some? && st.current.value.leftover > 0
    ensures multiset(Keys(Everything(RrStep(st, q)))) == multiset(Keys(Everything(st)))
  {
    if st.current.value.leftover <= q {
      RrStepKeysFinish(st, q);
    } else {
      RrStepKeysRequeue(st, q);
    }
  }

  lemma {:induction false} RrRunConserves(st: Sim, q: int)
    requires q > 0 && Runnable(Live(st))
    ensures multiset(Keys(Everything(RrRun(st, q)))) == multiset(Keys(Everything(st)))
    decreases Work(Live(st))
  {
    if st.current.Some? {
      RrStepPays(st, q);
      LiveSplit(st);
      RunnableConcat([st.current.value], st.ready + st.job);
      RrStepKeys(st, q);
      RrRunConserves(RrStep(st, q), q);
    }
  }

  /** Every completed record has run out its leftover. */
  predicate Drained(done: seq<Process>) {
    forall i :: 0 <= i < |done| ==> done[i].leftover == 0
  }

  /** The completed queue of a run stays chronological: finish is the
      clock at completion, waiting is consistent with it, and finish times
      never go down. */
  lemma {:induction false} RrRunChronological(st: Sim, q: int)
    requires q > 0 && Runnable(Live(st)) && Chronological(st.completed, st.clock)
    ensures Chronological(RrRun(st, q).completed, RrRun(st, q).clock)
    decreases Work(Live(st))
  {
    if st.current.Some? {
      RrStepPays(st, q);
      var next := RrStep(st, q);
      if st.current.value.leftover <= q {
        var f := next.completed[|st.completed|];
        assert next.completed == st.completed + [f];
        ChronologicalAppend(st.completed, st.clock, next.clock, f);
      }
      RrRunChronological(next, q);
    }
  }

  lemma RrStepDrained(st: Sim, q: int)
    requires q > 0 && st.current.Some? && st.current.value.leftover > 0
    requires Drained(st.completed)
    ensures Drained(RrStep(st, q).completed)
  {
    var next := RrStep(st, q);
    if st.current.value.leftover <= q {
      var f := next.completed[|st.completed|];
      assert next.completed == st.completed + [f];
    }
  }

  /** Every record a run completes has no leftover. */
  lemma {:induction false} RrRunDrained(st: Sim, q: int)
    requires q > 0 && Runnable(Live(st)) && Drained(st.completed)
    ensures Drained(RrRun(st, q).completed)
    decreases Work(Live(st))
  {
    if st.current.Some? {
      RrStepPays(st, q);
      RrStepDrained(st, q);
      RrRunDrained(RrStep(st, q), q);
    }
  }

  /** At the end of `rr` every input record is either completed or still
      pending (never admitted), none twice. */
  lemma RrConserves(input: seq<Process>, q: int)
    requires q > 0 && Runnable(input)
    ensures var r := Rr(input, q);
      multiset(Keys(r.job + r.completed)) == multiset(Keys(input))
  {
    RrRunConserves(Start(input), q);
    EverythingWhenIdle(Rr(input, q));
  }

  /** The completed queue `rr` hands back is in finishing order, with
      finish and waiting consistent for every record, and every record in
      it owes no more work. */
  lemma RrChronological(input: seq<Process>, q: int)
    requires q > 0 && Runnable(input)
    ensures Chronological(Rr(input, q).completed, Rr(input, q).clock)
    ensures Drained(Rr(input, q).completed)
  {
    RrRunChronological(Start(input), q);
    RrRunDrained(Start(input), q);
  }

  /** No record of `s` has run yet: each owes its whole burst, as the import
      leaves it. */
  predicate Untouched(s: seq<Process>) {
    forall i :: 0 <= i < |s| ==> s[i].leftover == s[i].burst
  }

  /** Every record of `s` whose key is not `k` has run only since its
      arrival: its arrival plus the work it has done is not after `clock`. */
  predicate OnTime(s: seq<Process>, clock: int, k: Key) {
    forall i :: 0 <= i < |s| && KeyOf(s[i]) != k ==> s[i].arrival + (s[i].burst - s[i].leftover) <= clock
  }

  /** The invariant of a round-robin run: the running and ready records are
      on time, and the pending ones have not run. */
  predicate RrOnTime(st: Sim, k: Key) {
    OnTime(Running(st) + st.ready, st.clock, k) && Untouched(st.job)
  }

  /** Every completed record from position `from` on whose key is not `k`
      finished no earlier than its arrival plus its burst. */
  predicate FeasibleBut(done: seq<Process>, from: int, k: Key) {
    forall i :: 0 <= from <= i < |done| && KeyOf(done[i]) != k ==> Feasible(done[i])
  }

  /** Records taken from a queue of untouched ones are untouched. */
  lemma UntouchedSub(a: seq<Process>, b: seq<Process>)
    requires multiset(a) <= multiset(b) && Untouched(b)
    ensures Untouched(a)
  {
    forall i | 0 <= i < |a|
      ensures a[i].leftover == a[i].burst
    {
      assert a[i] in multiset(a);
      assert a[i] in b;
    }
  }

  /** The checks over `lo..hi` admit records from the job queue, so if
      those had not run, neither have the admitted ones. */
  lemma ArrivalsUntouched(job: seq<Process>, lo: int, hi: int)
    requires Untouched(job)
    ensures Untouched(Arrivals(job, lo, hi))
  {
    ArrivalsConserve(job, lo, hi);
    UntouchedSub(Arrivals(job, lo, hi), job);
  }

  /** The records the checks over `lo..hi` leave pending have not run. */
  lemma OutsideUntouched(job: seq<Process>, lo: int, hi: int)
    requires Untouched(job)
    ensures Untouched(Filter(job, Outside(lo, hi)))
  {
    WindowOutsideSplit(job, lo, hi);
    UntouchedSub(Filter(job, Outside(lo, hi)), job);
  }

  /** The records one check at `t` admits have not run. */
  lemma WindowUntouched(job: seq<Process>, t: int)
    requires Untouched(job)
    ensures Untouched(Filter(job, Window(t, t)))
  {
    WindowOutsideSplit(job, t, t);
    UntouchedSub(Filter(job, Window(t, t)), job);
  }

  /** On-time records followed by untouched ones that have arrived by
      `clock` are on time. */
  lemma JoinArrived(ready: seq<Process>, adm: seq<Process>, clock: int, k: Key)
    requires OnTime(ready, clock, k) && Untouched(adm)
    requires forall i :: 0 <= i < |adm| ==> adm[i].arrival <= clock
    ensures OnTime(ready + adm, clock, k)
  {
    var s := ready + adm;
    forall i | 0 <= i < |s| && KeyOf(s[i]) != k
      ensures s[i].arrival + (s[i].burst - s[i].leftover) <= clock
    {
      if i < |ready| {
        assert s[i] == ready[i];
      } else {
        assert s[i] == adm[i - |ready|];
        assert adm[i - |ready|].leftover == adm[i - |ready|].burst;
      }
    }
  }

  /** On-time records followed by one more on-time record are on time. */
  lemma JoinOne(ready: seq<Process>, p: Process, clock: int, k: Key)
    requires OnTime(ready, clock, k)
    requires KeyOf(p) != k ==> p.arrival + (p.burst - p.leftover) <= clock
    ensures OnTime(ready + [p], clock, k)
  {
    var s := ready + [p];
    forall i | 0 <= i < |s| && KeyOf(s[i]) != k
      ensures s[i].arrival + (s[i].burst - s[i].leftover) <= clock
    {
      if i < |ready| {
        assert s[i] == ready[i];
      }
    }
  }

  /** The running record and the ready queue of an on-time state, split,
      and on time at any later clock. */
  lemma OnTimeSplit(st: Sim, k: Key, later: int)
    requires st.current.Some? && OnTime(Running(st) + st.ready, st.clock, k) && st.clock <= later
    ensures OnTime([st.current.value], st.clock, k) && OnTime(st.ready, later, k)
  {
    var s := Running(st) + st.ready;
    assert s == [st.current.value] + st.ready && s[0] == st.current.value;
    forall i | 0 <= i < |st.ready| && KeyOf(st.ready[i]) != k
      ensures st.ready[i].arrival + (st.ready[i].burst - st.ready[i].leftover) <= later
    {
      assert st.ready[i] == s[i + 1];
    }
  }

  /** After a completing turn from an on-time state, the next process and
      the ready queue are the old ready queue followed by records admitted
      from the job queue, which have arrived and not run; the job queue keeps
      the rest. Such a state is on time. */
  lemma OnTimeAfterFinish(st: Sim, k: Key, r: Sim, adm: seq<Process>, pend: seq<Process>)
    requires st.current.Some? && RrOnTime(st, k) && st.clock <= r.clock
    requires Untouched(adm) && Untouched(pend)
    requires forall i :: 0 <= i < |adm| ==> adm[i].arrival <= r.clock
    requires Running(r) + r.ready == st.ready + adm && r.job == pend
    ensures RrOnTime(r, k)
  {
    OnTimeSplit(st, k, r.clock);
    JoinArrived(st.ready, adm, r.clock, k);
  }

  /** After an incomplete turn of a quantum from an on-time state, the
      process put back sits between the records admitted during the quantum
      and those admitted at its end. It has run one quantum more in one
      quantum of clock time, so the state is on time. */
  lemma OnTimeAfterRequeue(st: Sim, k: Key, q: int, r: Sim, early: seq<Process>, last: seq<Process>, pend: seq<Process>)
    requires st.current.Some? && q > 0 && RrOnTime(st, k) && r.clock == st.clock + q
    requires Untouched(early) && Untouched(last) && Untouched(pend)
    requires forall i :: 0 <= i < |early| ==> early[i].arrival <= r.clock
    requires forall i :: 0 <= i < |last| ==> last[i].arrival <= r.clock
    requires Running(r) + r.ready == st.ready + early + [Charged(st.current.value, q)] + last && r.job == pend
    ensures RrOnTime(r, k)
  {
    var cur := st.current.value;
    OnTimeSplit(st, k, r.clock);
    assert [cur][0] == cur;
    JoinArrived(st.ready, early, r.clock, k);
    JoinOne(st.ready + early, Charged(cur, q), r.clock, k);
    JoinArrived(st.ready + early + [Charged(cur, q)], last, r.clock, k);
  }

  /** The queues after a completing turn of `n` ticks, as
      RrStepFinishOrder describes them. */
  predicate FinishedShape(st: Sim, n: int, r: Sim) {
    var c := st.clock;
    && r.clock == c + n
    && Running(r) + r.ready == st.ready + Arrivals(st.job, c + 1, c + n)
    && r.job == Filter(st.job, Outside(c + 1, c + n))
  }

  /** The queues after an incomplete turn of a quantum `q`, as
      RrStepRequeueOrder describes them. */
  predicate RequeuedShape(st: Sim, q: int, r: Sim)
    requires st.current.Some?
  {
    var c := st.clock;
    && r.clock == c + q
    && Running(r) + r.ready == st.ready + Arrivals(st.job, c + 1, c + q - 1)
                               + [Charged(st.current.value, q)] + Filter(st.job, Window(c + q, c + q))
    && r.job == Filter(st.job, Outside(c + 1, c + q))
  }

  /** A completing turn keeps the run on time. */
  lemma RrStepOnTimeFinish(st: Sim, n: int, k: Key, r: Sim)
    requires st.current.Some? && n >= 0 && RrOnTime(st, k) && FinishedShape(st, n, r)
    ensures RrOnTime(r, k)
  {
    var c := st.clock;
    ArrivalsUntouched(st.job, c + 1, c + n);
    OutsideUntouched(st.job, c + 1, c + n);
    OnTimeAfterFinish(st, k, r, Arrivals(st.job, c + 1, c + n), Filter(st.job, Outside(c + 1, c + n)));
  }

  /** An incomplete turn keeps the run on time. */
  lemma RrStepOnTimeRequeue(st: Sim, q: int, k: Key, r: Sim)
    requires q > 0 && st.current.Some? && RrOnTime(st, k) && RequeuedShape(st, q, r)
    ensures RrOnTime(r, k)
  {
    var c := st.clock;
    ArrivalsUntouched(st.job, c + 1, c + q - 1);
    OutsideUntouched(st.job, c + 1, c + q);
    WindowUntouched(st.job, c + q);
    OnTimeAfterRequeue(st, k, q, r, Arrivals(st.job, c + 1, c + q - 1),
                       Filter(st.job, Window(c + q, c + q)), Filter(st.job, Outside(c + 1, c + q)));
  }

  /** The record a turn completes from an on-time state finishes no earlier
      than its arrival plus its burst, unless it carries the exempt key. */
  lemma RrStepFeasible(st: Sim, q: int, k: Key, r: Sim)
    requires q > 0 && st.current.Some? && 0 < st.current.value.leftover <= q && RrOnTime(st, k)
    requires r == RrStep(st, q) && KeyOf(st.current.value) != k
    ensures Feasible(r.completed[|st.completed|])
  {
    var cur := st.current.value;
    OnTimeSplit(st, k, st.clock);
    assert [cur][0] == cur;
  }

  /** A turn keeps the run on time, and the record it completes, if any,
      is feasible unless it carries the exempt key. */
  lemma RrStepOnTime(st: Sim, q: int, k: Key, r: Sim)
    requires q > 0 && st.current.Some? && st.current.value.leftover > 0 && RrOnTime(st, k)
    requires r == RrStep(st, q)
    ensures RrOnTime(r, k)
    ensures var cur := st.current.value; cur.leftover <= q && KeyOf(cur) != k ==>
      Feasible(r.completed[|st.completed|])
  {
    var cur := st.current.value;
    if cur.leftover <= q {
      RrStepFinishOrder(st, q);
      assert FinishedShape(st, cur.leftover, r);
      RrStepOnTimeFinish(st, cur.leftover, k, r);
      if KeyOf(cur) != k {
        RrStepFeasible(st, q, k, r);
      }
    } else {
      RrStepRequeueOrder(st, q);
      assert RequeuedShape(st, q, r);
      RrStepOnTimeRequeue(st, q, k, r);
    }
  }

  /** One more feasible record in front of a run of feasible ones. */
  lemma FeasibleButFrom(done: seq<Process>, prefix: seq<Process>, from: nat, k: Key)
    requires from <= |prefix| <= |done| && done[..|prefix|] == prefix
    requires forall i :: from <= i < |prefix| && KeyOf(prefix[i]) != k ==> Feasible(prefix[i])
    requires FeasibleBut(done, |prefix|, k)
    ensures FeasibleBut(done, from, k)
  {
    forall i | from <= i < |prefix|
      ensures done[i] == prefix[i]
    {
      assert done[..|prefix|][i] == done[i];
    }
  }

  /** A run from an on-time state completes every record not carrying the
      exempt key at or after its arrival plus its burst. */
  lemma {:induction false} RrRunFeasible(st: Sim, q: int, k: Key)
    requires q > 0 && Runnable(Live(st)) && RrOnTime(st, k)
    ensures FeasibleBut(RrRun(st, q).completed, |st.completed|, k)
    decreases Work(Live(st))
  {
    if st.current.Some? {
      var cur := st.current.value;
      assert Live(st)[0] == cur;
      RunnableMember(Live(st), cur);
      RrStepPays(st, q);
      var next := RrStep(st, q);
      RrStepOnTime(st, q, k, next);
      RrRunFeasible(next, q, k);
      FeasibleButFrom(RrRun(next, q).completed, next.completed, |st.completed|, k);
    }
  }

  /** For input records that have not run yet, as the import leaves them,
      every record `rr` completes, except the input head (and any record
      identical to it in its key fields), finished no earlier than its
      arrival plus its burst: its waiting time is 0 or more. */
  lemma RrLaterFeasible(input: seq<Process>, q: int)
    requires q > 0 && Runnable(input) && Untouched(input)
    ensures var r := Rr(input, q);
      |input| > 0 ==> forall i :: 0 <= i < |r.completed| && KeyOf(r.completed[i]) != KeyOf(input[0]) ==>
        Feasible(r.completed[i]) && r.completed[i].waiting >= 0
  {
    RrChronological(input, q);
    if |input| > 0 {
      var st := Start(input);
      var k := KeyOf(input[0]);
      assert Running(st) + st.ready == [input[0]];
      UntouchedSub(input[1..], input);
      assert RrOnTime(st, k);
      RrRunFeasible(st, q, k);
    }
  }
}

=== FILE: scheduler.dfy ===
/** `processQueue`: hand the imported records to the algorithm the command
    line names and return the completed queue it builds. */
module Scheduler {

  import opened Records
  import opened Simulation
  import opened NonPreemptive
  import opened RoundRobin
  import opened NppProperties
  import opened RrProperties

  /** What a selector demands of its input: round robin needs a positive
      quantum and work owed by every record, or its loop never ends. */
  predicate Admissible(input: seq<Process>, algorithm: string, quantum: int) {
    algorithm == "RR" ==> quantum > 0 && Runnable(input)
  }

  /** Lines 409-418: "NPP" and "RR" pick the simulator; any other string
      leaves the completed queue empty. */
  function ProcessQueue(input: seq<Process>, algorithm: string, quantum: int): (r: seq<Process>)
    requires Admissible(input, algorithm, quantum)
    ensures algorithm != "NPP" && algorithm != "RR" ==> r == []
    ensures |input| == 0 ==> r == []
  {
    if algorithm == "NPP" then Npp(input).completed
    else if algorithm == "RR" then Rr(input, quantum).completed
    else []
  }

  /** Whatever the selector, the returned queue is in finishing order, with
      consistent bookkeeping for every record: it is chronological as of
      the clock at which the run ended. */
  lemma ProcessQueueInOrder(input: seq<Process>, algorithm: string, quantum: int)
    requires Admissible(input, algorithm, quantum)
    ensures exists clock :: Chronological(ProcessQueue(input, algorithm, quantum), clock)
  {
    if algorithm == "NPP" {
      NppChronological(input);
      assert Chronological(ProcessQueue(input, algorithm, quantum), Npp(input).clock);
    } else if algorithm == "RR" {
      RrChronological(input, quantum);
      assert Chronological(ProcessQueue(input, algorithm, quantum), Rr(input, quantum).clock);
    } else {
      assert Chronological(ProcessQueue(input, algorithm, quantum), 0);
    }
  }

  /** Whatever the selector, the returned queue holds input records only,
      each at most as often as the input does: what is missing is exactly
      what the simulator left pending. */
  lemma ProcessQueueKeys(input: seq<Process>, algorithm: string, quantum: int)
    requires Admissible(input, algorithm, quantum)
    ensures multiset(Keys(ProcessQueue(input, algorithm, quantum))) <= multiset(Keys(input))
  {
    if algorithm == "NPP" {
      var r := Npp(input);
      NppConserves(input);
      KeysConcat(r.job, r.completed);
    } else if algorithm == "RR" {
      var r := Rr(input, quantum);
      RrConserves(input, quantum);
      KeysConcat(r.job, r.completed);
    }
  }
}

=== FILE: simulation.dfy ===
/** What `npp` and `rr` share: the simulator state, their common opening
    (the input head becomes the first current process and every other record
    goes to the job queue) and the completion bookkeeping. */
module Simulation {

  import opened Records
  import opened Queue

  /** The local state of `npp`/`rr`: the logical `CLOCK`, `currentProcess`
      (None for NULL), the ready queue, the job (not yet arrived) queue and
      the completed queue (`ProcessQueue`). */
  datatype Sim = Sim(clock: int, current: Option<Process>, ready: seq<Process>,
                     job: seq<Process>, completed: seq<Process>)

  function Running(st: Sim): seq<Process> {
    match st.current
    case None => []
    case Some(p) => [p]
  }

  /** Every record not yet completed: the running one, then the ready queue,
      then the job queue. */
  function Live(st: Sim): seq<Process> {
    Running(st) + st.ready + st.job
  }

  /** Every record the simulator holds, in any of its queues. */
  function Everything(st: Sim): seq<Process> {
    Live(st) + st.completed
  }

  /** Lines 345-352 of `npp` (and 372-379 of `rr`): the clock starts at 0, the
      head of the input is dequeued as the first current process, whatever
      its arrival time or priority, and every other record is moved, in
      order, to the job queue. An empty input leaves no current process. */
  function Start(input: seq<Process>): (st: Sim)
    ensures st.clock == 0 && st.ready == [] && st.completed == []
    ensures Live(st) == input && Everything(st) == input
    ensures st.current.None? <==> |input| == 0
    ensures |input| > 0 ==> st.current == Some(input[0]) && st.job == input[1..]
  {
    match Dequeue(input)
    case None => Sim(0, None, [], [], [])
    case Some(p) => Sim(0, Some(p.head), [], p.rest, [])
  }

  /** Completion (lines 359-360 and 393-394): finish is the clock now, and
      waiting is computed from it; no other field changes. */
  function Complete(p: Process, clock: int): (c: Process)
    ensures KeyOf(c) == KeyOf(p) && c.leftover == p.leftover
    ensures c.finish == clock && Completed(c)
  {
    p.(waiting := clock - p.arrival - p.burst, finish := clock)
  }

  /** The completed queue at clock `clock`: every record carries consistent
      bookkeeping, finished no later than now, and the queue is in finishing
      order. */
  predicate Chronological(done: seq<Process>, clock: int) {
    && (forall i :: 0 <= i < |done| ==> Completed(done[i]) && done[i].finish <= clock)
    && (forall i, j :: 0 <= i < j < |done| ==> done[i].finish <= done[j].finish)
  }

  /** Appending a record completed now, at a clock that never went back,
      keeps the completed queue chronological. */
  lemma ChronologicalAppend(done: seq<Process>, clock: int, now: int, p: Process)
    requires clock <= now && Completed(p) && p.finish == now
    ensures Chronological(done, clock) ==> Chronological(done + [p], now)
  {
  }

  /** Collects the multiset reasoning both simulators need about one turn:
      if the queues `a` hold the same records as `b1 + b2` and one record
      moves to the completed queue with its key unchanged, all keys are
      conserved. */
  lemma KeysMoved(a: seq<Process>, b1: seq<Process>, b2: seq<Process>, done: seq<Process>, x: Process, y: Process)
    requires multiset(a) == multiset(b1 + b2) && KeyOf(x) == KeyOf(y)
    ensures multiset(Keys(a + (done + [y]))) == multiset(Keys([x] + b1 + b2 + done))
  {
    var b := b1 + b2;
    AppendAssoc([x], b1, b2);
    KeysPermutation(a, b);
    KeysConcat(a, done + [y]);
    KeysConcat(done, [y]);
    KeysConcat([x] + b, done);
    KeysConcat([x], b);
  }

  /** Same, when the record goes back to the queues instead. */
  lemma KeysKept(a: seq<Process>, b1: seq<Process>, b2: seq<Process>, done: seq<Process>, x: Process, y: Process)
    requires multiset(a) == multiset(b1 + b2 + [y]) && KeyOf(x) == KeyOf(y)
    ensures multiset(Keys(a + done)) == multiset(Keys([x] + b1 + b2 + done))
  {
    var b := b1 + b2;
    AppendAssoc([x], b1, b2);
    KeysPermutation(a, b + [y]);
    KeysConcat(a, done);
    KeysConcat(b, [y]);
    KeysConcat([x] + b, done);
    KeysConcat([x], b);
  }

  /** With nothing running and nothing ready, the simulator holds the job
      queue and the completed queue. */
  lemma EverythingWhenIdle(st: Sim)
    requires st.current.None? && st.ready == []
    ensures Everything(st) == st.job + st.completed
  {
  }
}

=== FILE: worked_examples.dfy ===
/** The two schedules worked out by hand for `npp` and `rr`, derived turn by
    turn from the model. */
module WorkedExamples {

  import opened Records
  import opened Queue
  import opened Filters
  import opened Arrival
  import opened PrioritySort
  import opened Simulation
  import opened NonPreemptive
  import opened RoundRobin
  import opened Scheduler
  import opened NppProperties
  import opened RrProperties

  /** No record is ever admitted from an empty job queue. */
  lemma {:induction false} ArrivalsFromNothing(lo: int, hi: int)
    ensures Arrivals([], lo, hi) == []
    decreases hi - lo
  {
    if lo <= hi {
      ArrivalsFromNothing(lo, hi - 1);
    }
  }

  lemma Triple<T>(a: T, b: T, c: T)
    ensures [a] + [b] + [c] == [a, b, c]
  {
  }

  /** The record the import makes of one row: its key, nothing done yet,
      and the whole burst owed. */
  lemma ImportedRow(p: Process, k: Key)
    requires KeyOf(p) == k && Fresh(p)
    ensures p == Process(k.pid, k.arrival, k.burst, 0, 0, k.burst, k.priority)
  {
  }

  /** The later records of the priority example, as the job queue: both
      arrive during the first burst. */
  lemma NppArrivalsDuringFirstBurst(p2: Process, p3: Process, clock: int)
    requires p2 == Process(2, 1, 3, 0, 0, 3, 1) && p3 == Process(3, 2, 8, 0, 0, 8, 3) && clock == 0
    ensures Arrivals([p2, p3], clock + 1, clock + 5) == [p2, p3]
    ensures Filter([p2, p3], Outside(clock + 1, clock + 5)) == []
  {
    var job := [p2, p3];
    assert Arrivals(job, 1, 0) == [];
    assert Filter(job, Window(1, 1)) == [p2];
    assert Filter(job, Window(2, 2)) == [p3];
    assert Arrivals(job, 1, 2) == job;
    assert Filter(job, Window(3, 3)) == [];
    assert Arrivals(job, 1, 3) == job;
    assert Filter(job, Window(4, 4)) == [];
    assert Arrivals(job, 1, 4) == job;
    assert Filter(job, Window(5, 5)) == [];
  }

  /** A burst during which every pending record arrives, already in
      priority order behind the ready ones, leaves them all ready. */
  lemma BurstAdmitsAll(st: Sim, until: int)
    requires until > st.clock && Sorted(st.ready + st.job)
    requires Arrivals(st.job, st.clock + 1, until) == st.job
    requires Filter(st.job, Outside(st.clock + 1, until)) == []
    ensures Burst(st, until).ready == st.ready + st.job && Burst(st, until).job == []
  {
    BurstAhead(st, until);
    SortIdempotent(st.ready + st.job);
  }

  /** A burst with nothing pending leaves the sorted ready queue alone. */
  lemma BurstQuiet(st: Sim, until: int)
    requires until > st.clock && st.job == [] && Sorted(st.ready)
    ensures Burst(st, until).ready == st.ready && Burst(st, until).job == []
  {
    BurstAhead(st, until);
    ArrivalsFromNothing(st.clock + 1, until);
    assert st.ready + [] == st.ready;
    SortIdempotent(st.ready);
  }

  /** A turn whose burst leaves nothing pending and the ready queue sorted
      ends in the dispatch of that queue's head. */
  lemma NppStepNothingPending(st: Sim, ready: seq<Process>)
    requires st.current.Some? && Sorted(ready)
    requires var run := Burst(st, st.clock + st.current.value.burst); run.ready == ready && run.job == []
    ensures var t := Burst(st, st.clock + st.current.value.burst).clock;
      NppStep(st) == SelectNext(t, Queues(ready, []), st.completed + [Complete(st.current.value, t)])
  {
    var t := Burst(st, st.clock + st.current.value.burst).clock;
    assert ArrivalChecker(ready, [], t) == Queues(ready, []);
    if |ready| > 0 {
      SortIdempotent(ready);
    }
    assert Admit(ready, [], t) == Queues(ready, []);
    NppStepIs(st);
  }

  /** Process 1 runs its whole burst; 2 and 3 arrive meanwhile and are in
      priority order already, so 2 is next. */
  lemma NppFirstTurn(p1: Process, p2: Process, p3: Process, st: Sim)
    requires p1 == Process(1, 0, 5, 0, 0, 5, 2) && p2 == Process(2, 1, 3, 0, 0, 3, 1) && p3 == Process(3, 2, 8, 0, 0, 8, 3)
    requires st == Sim(0, Some(p1), [], [p2, p3], [])
    ensures NppStep(st) == Sim(5, Some(p2), [p3], [], [Complete(p1, 5)])
  {
    NppArrivalsDuringFirstBurst(p2, p3, st.clock);
    assert Sorted([p2, p3]);
    assert st.ready + st.job == [p2, p3];
    BurstAdmitsAll(st, st.clock + 5);
    NppStepNothingPending(st, [p2, p3]);
  }

  /** Process 2 runs its burst with nothing pending; 3 is next. */
  lemma NppSecondTurn(p2: Process, p3: Process, st: Sim)
    requires p2 == Process(2, 1, 3, 0, 0, 3, 1) && p3 == Process(3, 2, 8, 0, 0, 8, 3)
    requires st.clock == 5 && st.current == Some(p2) && st.ready == [p3] && st.job == []
    ensures NppStep(st) == Sim(8, None, [], [], []).(current := Some(p3), completed := st.completed + [Complete(p2, 8)])
  {
    BurstQuiet(st, st.clock + 3);
    NppStepNothingPending(st, [p3]);
  }

  /** Process 3 runs last, and the ready queue is empty at the end. */
  lemma NppThirdTurn(p3: Process, st: Sim)
    requires p3 == Process(3, 2, 8, 0, 0, 8, 3)
    requires st.clock == 8 && st.current == Some(p3) && st.ready == [] && st.job == []
    ensures NppStep(st) == Sim(16, None, [], [], st.completed + [Complete(p3, 16)])
  {
    BurstQuiet(st, st.clock + 8);
    NppStepNothingPending(st, []);
  }

  /** A turn that leads to `next` leaves the rest of the run to `next`. */
  lemma NppRunStep(st: Sim, next: Sim)
    requires st.current.Some? && NppStep(st) == next
    ensures NppRun(st) == NppRun(next)
  {
  }

  /** The three turns of the priority example, one after the other. */
  lemma NppExampleRun(p1: Process, p2: Process, p3: Process)
    requires p1 == Process(1, 0, 5, 0, 0, 5, 2) && p2 == Process(2, 1, 3, 0, 0, 3, 1) && p3 == Process(3, 2, 8, 0, 0, 8, 3)
    ensures NppRun(Start([p1, p2, p3])).completed == [Complete(p1, 5)] + [Complete(p2, 8)] + [Complete(p3, 16)]
  {
    var st0 := Start([p1, p2, p3]);
    assert st0 == Sim(0, Some(p1), [], [p2, p3], []);
    var st1 := Sim(5, Some(p2), [p3], [], [Complete(p1, 5)]);
    var st2 := Sim(8, Some(p3), [], [], [Complete(p1, 5)] + [Complete(p2, 8)]);
    var st3 := Sim(16, None, [], [], [Complete(p1, 5)] + [Complete(p2, 8)] + [Complete(p3, 16)]);
    NppFirstTurn(p1, p2, p3, st0);
    NppRunStep(st0, st1);
    NppSecondTurn(p2, p3, st1);
    NppRunStep(st1, st2);
    NppThirdTurn(p3, st2);
    NppRunStep(st2, st3);
  }

  lemma NppSelected(input: seq<Process>)
    ensures ProcessQueue(input, "NPP", 0) == NppRun(Start(input)).completed
  {
  }

  lemma NppExampleBookkeeping(p1: Process, p2: Process, p3: Process)
    requires p1 == Process(1, 0, 5, 0, 0, 5, 2) && p2 == Process(2, 1, 3, 0, 0, 3, 1) && p3 == Process(3, 2, 8, 0, 0, 8, 3)
    ensures [Complete(p1, 5), Complete(p2, 8), Complete(p3, 16)]
      == [p1.(finish := 5, waiting := 0), p2.(finish := 8, waiting := 4), p3.(finish := 16, waiting := 6)]
  {
  }

  /** Three records: 1 arrives at 0 and runs 5 ticks, 2 arrives at 1 with
      the highest priority, 3 arrives at 2 with the lowest. Process 1 runs
      first; 2 and 3 arrive during its burst and run in priority order:
      finish times 5, 8 and 16, waiting times 0, 4 and 6. */
  lemma NppExample(input: seq<Process>)
    requires input == Import([Key(1, 0, 5, 2), Key(2, 1, 3, 1), Key(3, 2, 8, 3)])
    ensures ProcessQueue(input, "NPP", 0)
      == [input[0].(finish := 5, waiting := 0), input[1].(finish := 8, waiting := 4), input[2].(finish := 16, waiting := 6)]
  {
    var p1, p2, p3 := input[0], input[1], input[2];
    ImportedRow(p1, Key(1, 0, 5, 2));
    ImportedRow(p2, Key(2, 1, 3, 1));
    ImportedRow(p3, Key(3, 2, 8, 3));
    assert input == [p1, p2, p3];
    NppExampleRun(p1, p2, p3);
    NppSelected([p1, p2, p3]);
    NppExampleBookkeeping(p1, p2, p3);
    Triple(Complete(p1, 5), Complete(p2, 8), Complete(p3, 16));
  }

  /** When a turn leaves the ready queue empty whenever nothing runs, the
      running record and the ready queue together tell which one runs. */
  lemma Dispatched(r: Sim, x: Process, rest: seq<Process>)
    requires r.current.None? ==> r.ready == []
    requires Running(r) + r.ready == [x] + rest
    ensures r.current == Some(x) && r.ready == rest
  {
    var s := Running(r) + r.ready;
    assert s[0] == x && s[1..] == rest;
    assert |Running(r)| == 1;
    assert s[1..] == r.ready;
  }

  /** Process 1 owes more than a quantum: after four ticks, during which 2
      arrives (at the tick of clock 1), it goes back behind 2. */
  lemma RrFirstTurn(p1: Process, p2: Process, st: Sim)
    requires p1 == Process(1, 0, 5, 0, 0, 5, 1) && p2 == Process(2, 1, 3, 0, 0, 3, 1)
    requires st == Sim(0, Some(p1), [], [p2], [])
    ensures RrStep(st, 4) == Sim(4, Some(p2), [Charged(p1, 4)], [], [])
  {
    var c := st.clock;
    var r := RrStep(st, 4);
    RrStepRequeueOrder(st, 4);
    assert Arrivals([p2], c + 1, c + 3) == [p2] by {
      assert Arrivals([p2], 1, 0) == [];
      assert Filter([p2], Window(1, 1)) == [p2];
      assert Filter([p2], Window(2, 2)) == [];
      assert Filter([p2], Window(3, 3)) == [];
      assert Arrivals([p2], 1, 2) == [p2];
    }
    assert Filter([p2], Window(c + 4, c + 4)) == [];
    assert Filter([p2], Outside(c + 1, c + 4)) == [];
    assert Running(r) + r.ready == [p2] + [Charged(p1, 4)];
    Dispatched(r, p2, [Charged(p1, 4)]);
  }

  /** Process 2 needs three ticks, less than a quantum: it completes at 7,
      having waited 3, and 1 runs again. */
  lemma RrSecondTurn(p1: Process, p2: Process, st: Sim)
    requires p2 == Process(2, 1, 3, 0, 0, 3, 1)
    requires st.clock == 4 && st.current == Some(p2) && st.ready == [p1] && st.job == [] && st.completed == []
    ensures RrStep(st, 4) == Sim(7, Some(p1), [], [], [p2.(finish := 7, waiting := 3, leftover := 0)])
  {
    var r := RrStep(st, 4);
    RrStepFinishOrder(st, 4);
    ArrivalsFromNothing(st.clock + 1, st.clock + 3);
    assert [p1] + [] == [p1];
    Dispatched(r, p1, []);
    var f := r.completed[0];
    assert r.completed == [f];
  }

  /** Process 1 owes the one tick left: it completes at 8, having waited 3,
      and nothing is ready. */
  lemma RrThirdTurn(p1: Process, st: Sim)
    requires p1 == Process(1, 0, 5, 0, 0, 5, 1).(leftover := 1)
    requires st.clock == 7 && st.current == Some(p1) && st.ready == [] && st.job == [] && |st.completed| == 1
    ensures RrStep(st, 4) == Sim(8, None, [], [], st.completed + [p1.(finish := 8, waiting := 3, leftover := 0)])
  {
    var r := RrStep(st, 4);
    RrStepFinishOrder(st, 4);
    ArrivalsFromNothing(st.clock + 1, st.clock + 1);
    var f := r.completed[1];
    assert r.completed == st.completed + [f];
  }

  /** A turn that leads to `next` leaves the rest of the run to `next`. */
  lemma RrRunStep(st: Sim, q: int, next: Sim)
    requires q > 0 && Runnable(Live(st)) && st.current.Some? && RrStep(st, q) == next
    ensures Runnable(Live(next)) && RrRun(st, q) == RrRun(next, q)
  {
    RrStepPays(st, q);
  }

  /** The three turns of the round-robin example, one after the other. */
  lemma RrExampleRun(p1: Process, p2: Process)
    requires p1 == Process(1, 0, 5, 0, 0, 5, 1) && p2 == Process(2, 1, 3, 0, 0, 3, 1)
    ensures Runnable([p1, p2])
    ensures RrRun(Start([p1, p2]), 4).completed
      == [p2.(finish := 7, waiting := 3, leftover := 0)] + [Charged(p1, 4).(finish := 8, waiting := 3, leftover := 0)]
  {
    var st0 := Start([p1, p2]);
    assert st0 == Sim(0, Some(p1), [], [p2], []);
    assert Runnable([p2]) by {
      assert [p2][1..] == [];
    }
    assert [p1, p2][1..] == [p2];
    var p1' := Charged(p1, 4);
    var st1 := Sim(4, Some(p2), [p1'], [], []);
    var st2 := Sim(7, Some(p1'), [], [], [p2.(finish := 7, waiting := 3, leftover := 0)]);
    var st3 := Sim(8, None, [], [], st2.completed + [p1'.(finish := 8, waiting := 3, leftover := 0)]);
    RrFirstTurn(p1, p2, st0);
    RrRunStep(st0, 4, st1);
    RrSecondTurn(p1', p2, st1);
    RrRunStep(st1, 4, st2);
    RrThirdTurn(p1', st2);
    RrRunStep(st2, 4, st3);
  }

  /** The "RR" selector returns what the round-robin run completes. */
  lemma RrReturns(input: seq<Process>, q: int, expected: seq<Process>)
    requires q > 0 && Runnable(input) && RrRun(Start(input), q).completed == expected
    ensures Admissible(input, "RR", q) && ProcessQueue(input, "RR", q) == expected
  {
  }

  lemma RrExampleBookkeeping(p1: Process, p2: Process)
    requires p1 == Process(1, 0, 5, 0, 0, 5, 1) && p2 == Process(2, 1, 3, 0, 0, 3, 1)
    ensures [p2.(finish := 7, waiting := 3, leftover := 0)] + [Charged(p1, 4).(finish := 8, waiting := 3, leftover := 0)]
      == [p2.(finish := 7, waiting := 3, leftover := 0), p1.(finish := 8, waiting := 3, leftover := 0)]
  {
  }

  /** Quantum 4; process 1 arrives at 0 and needs 5 ticks, 2 arrives at 1
      and needs 3. Process 1 is preempted after one quantum, at 4, behind 2,
      which arrived meanwhile; 2 completes at 7, having waited 3; 1 finishes
      its last tick at 8, having waited 3 as well. */
  lemma RrExample(input: seq<Process>)
    requires input == Import([Key(1, 0, 5, 1), Key(2, 1, 3, 1)])
    ensures Admissible(input, "RR", 4)
    ensures ProcessQueue(input, "RR", 4)
      == [input[1].(finish := 7, waiting := 3, leftover := 0), input[0].(finish := 8, waiting := 3, leftover := 0)]
  {
    var p1, p2 := input[0], input[1];
    ImportedRow(p1, Key(1, 0, 5, 1));
    ImportedRow(p2, Key(2, 1, 3, 1));
    assert input == [p1, p2];
    RrExampleRun(p1, p2);
    RrExampleBookkeeping(p1, p2);
    RrReturns([p1, p2], 4, [p2.(finish := 7, waiting := 3, leftover := 0), p1.(finish := 8, waiting := 3, leftover := 0)]);
  }
}
